=== FILE: README.md ===
# LifeGuardian demo core in Dafny

LifeGuardian is a senior-safety monitoring demo. A phone-style screen plays a
video of a subject, or ticks a timer when there is none. A pose model
classifies each frame, and the session raises posture events such as
"sitting", "laying" or "falling". It also keeps a simulated clock and warns
after 45 simulated minutes of sitting. A mock "AI analysis" pre-computes one
event before the session starts. Finished sessions are stored as cameras on
a dashboard, and a care-group screen manages the people who may watch.

This project models the decision logic of that demo as pure functions over
immutable datatypes and proves properties about them.

| module | file | what it models |
|---|---|---|
| `Types` | `types.dfy` | The shared records. |
| `Text` | `text.dfy` | The string helpers the code relies on: `split`, `Number`, `padStart(2, '0')` and `replace`. |
| `Calendar` | `calendar.dfy` | Proleptic Gregorian civil time in whole minutes since 1970-01-01 00:00, and the normalising multi-argument `Date` constructor. |
| `Clock` | `clock.dfy` | The simulated clock of a session, the formatting of its time and date, the duration text, the `MM:SS` video clock, the progress value, the one-second timer, and the effect that writes the clock back into the configuration. |
| `PostureMachine` | `posture.dfy` | The per-frame posture pipeline, in these steps:<br>1. the decision from the three classifier signals, with the fall relabelling;<br>2. the jitter filter;<br>3. the rolling five-entry buffer;<br>4. the whole-buffer stability check;<br>5. the event raised when the stable posture differs from the displayed one. |
| `SittingMonitor` | `sitting.dfy` | The sitting-time accumulator and the one-shot wellness notification. |
| `AiAnalysis` | `analysis.dfy` | `analyzeVideo`. |
| `AppState` | `app.dfy` | The application handlers and the choice of the screen to show. |
| `Group` | `group.dfy` | The care group's member and request lists, the Owner-row guards, the invite code and the join form. |
| `Dashboard` | `dashboard.dfy` | The settings-menu toggle, the guard on the placeholder camera, and the date label of a camera card. |
| `PoseDetection` | `pose.dfy` | The `isFalling` threshold predicate over exact reals. |

The model follows the code as written.

- **Falls never become events (`PostureMachine`).** The jitter filter keeps re-pushing the buffer's last entry once the buffer holds three postures. The stability check compares the whole buffer with the detection. Together these mean a session raises at most one posture event and never raises a fall event. This is proved as `PostureMachine.AtMostOneEvent`.
  - The comments at `src/components/SimulationRunning.tsx` lines 242 and 257 say otherwise: a fall is meant to skip the three-frame wait. Under that intent, three standing frames followed by a laying frame would raise a critical fall event at once. The code raises nothing for that input, and the figure stays standing. This is proved as `PostureMachine.StandThenFallRaisesNothing`.
  - The code also relabels laying as falling from the last *buffered* entry, not from the last confirmed posture.
- **Empty `videoUrl` (`Clock`).** An empty `videoUrl` counts as no video, because JavaScript treats the empty string as false.

## Model

| member | source | states |
|---|---|---|
| PostureMachine.Detect | src/components/SimulationRunning.tsx:239-255 | The decision follows the priority laying > standing > walking > sitting. It is falling exactly when laying holds and the last buffered entry is standing or walking. It is laying when laying holds and the buffer is empty or ends in another posture. |
| PostureMachine.Filter | src/components/SimulationRunning.tsx:257-265 | With three or more buffered entries, a non-fall detection is replaced by the buffer's current last entry, whether or not the last three agree. With fewer entries, or for a fall, the detection is pushed. |
| PostureMachine.Push | src/components/SimulationRunning.tsx:317-320 | The buffer grows by one up to five entries, then keeps five. The new entry is last. The earlier entries are the old buffer, less exactly its oldest entry when it was full. |
| PostureMachine.Step | src/components/SimulationRunning.tsx:239-336 | One frame:<br>- keeps the buffer within five entries;<br>- changes nothing when no person is detected;<br>- pushes the filtered detection onto the buffer;<br>- raises an event exactly when the frame's own detection is not a fall, differs from the displayed posture and the new buffer is stable on it;<br>- the event's posture is that detection, which becomes the displayed one;<br>- never raises a fall event;<br>- never newly displays a fall. |
| PostureMachine.WalkingOnSittingBufferRaisesNothing | src/components/SimulationRunning.tsx:258-336 | A walking frame that the jitter filter re-pushes as sitting, filling the buffer with sitting entries, raises no event: stability is judged against the walking detection. |
| PostureMachine.Run | src/components/SimulationRunning.tsx:239-336 | Over a sequence of frames, at most one event per frame is raised, and none of them is a fall. |
| PostureMachine.LastEntryFrozen | src/components/SimulationRunning.tsx:257-320 | Once three entries are buffered, the last entry after a frame is the previous last entry or a fall. |
| PostureMachine.FallingStaysLast | src/components/SimulationRunning.tsx:241-265 | A fall at the end of a buffer of three or more stays at the end after every frame. |
| PostureMachine.EventSettles | src/components/SimulationRunning.tsx:319-336 | The frame that raises an event leaves the buffer holding only the displayed posture, possibly followed by falls. |
| PostureMachine.SettledStep | src/components/SimulationRunning.tsx:257-336 | Such a settled session stays settled and raises no event on any frame. |
| PostureMachine.AtMostOneEvent | src/components/SimulationRunning.tsx:239-336 | Over any sequence of frames, a session raises at most one event, and never a fall event. |
| PostureMachine.RunInvariant | src/components/SimulationRunning.tsx:317-336 | From a new session (empty buffer, standing figure), the buffer never exceeds five entries and the displayed posture is never a fall. |
| PostureMachine.StandingFrames | src/components/SimulationRunning.tsx:249-336 | Up to five standing frames from a new session fill the buffer with standing entries, raise no event, and keep the figure standing. |
| PostureMachine.SittingFrames | src/components/SimulationRunning.tsx:253-323 | One or two sitting frames from a new session only fill the buffer with sitting entries: the stability check needs three. |
| PostureMachine.StandThenFallRaisesNothing | src/components/SimulationRunning.tsx:241-323 | Three standing frames and then a laying frame raise no event. The buffer ends as standing ×3 then falling, and the figure stays standing. |
| PostureMachine.ThreeSittingFramesRaiseSitting | src/components/SimulationRunning.tsx:253-336 | Three sitting frames from a new session raise exactly one sitting event, and display sitting. |
| PostureMachine.DescriptionInjective | src/components/SimulationRunning.tsx:294-303 | The fixed descriptions of the five postures are pairwise different. |
| PostureMachine.MakeEvent | src/components/SimulationRunning.tsx:268-315 | The event record carries:<br>- the posture and the given id and snapshot;<br>- critical exactly for a fall;<br>- the posture's description;<br>- the time and date texts of the simulated clock at that video second. |
| PostureMachine.ProcessFrame | src/components/SimulationRunning.tsx:323-336 | A record goes out exactly when the step raises an event. Its kind is the newly displayed posture, and it is never critical. |
| Clock.SimMinutes | src/components/SimulationRunning.tsx:42-44 | The simulated minute is the start at video time zero, and, for the whole non-negative speeds modelled, never before the start. |
| Clock.SimMinutesMonotone | src/components/SimulationRunning.tsx:44 | Simulated time does not decrease as video time grows. It advances by exactly `speed` minutes per second. |
| Clock.StartMinutes | src/components/SimulationRunning.tsx:34-40 | The anchor is invalid exactly when the start time or the date does not parse. Otherwise it is the `Date` constructor's minute for the parsed year, month, day, hour and minute. |
| Clock.TimeString | src/components/SimulationRunning.tsx:50 | The time text is five characters with a colon in the middle. The two pieces read back as the minute's hour and minute. |
| Clock.DateString | src/components/SimulationRunning.tsx:52-56 | For years from 0 on, the date text has dashes three and six characters from its end. The three pieces read back as the minute's year, month and day. |
| Clock.TimeStringRoundTrip | src/components/SimulationRunning.tsx:50 | The time text of every minute is five characters `HH:MM`, and parses back to that minute's hour and minute. |
| Clock.DateStringRoundTrip | src/components/SimulationRunning.tsx:52-56 | The date text has two-digit month and day after dashes, and parses back to the calendar fields of the minute. |
| Clock.StartMinutesRoundTrip | src/components/SimulationRunning.tsx:34-40 | Anchoring a session on the time and date texts of a minute gives that minute back, so writing the clock into the configuration does not make it drift. |
| Clock.ClockStartsAtAnchor | src/components/SimulationRunning.tsx:34-44 | At video time zero the clock shows exactly the configured start time and date. |
| Clock.DurationText | src/components/SimulationRunning.tsx:58-66 | The text ends in the unit suffix. Before it, a dot separates the whole hours from exactly two digits of the remaining minutes, below 60, and both read back. |
| Clock.DurationTextRoundTrip | src/components/SimulationRunning.tsx:58-66 | The `H.MM ชั่วโมง` text reads back as hours and two-digit minutes below 60 that add up to the elapsed simulated minutes. |
| Clock.FormatVideoTime | src/components/SimulationRunning.tsx:351-355 | The text is the whole minutes, a colon and the two-digit seconds below 60, and both pieces read back. |
| Clock.FormatVideoTimeRoundTrip | src/components/SimulationRunning.tsx:351-355 | The video clock reads back as minutes and seconds, seconds below 60, that make up the position. Below 100 minutes it is five characters. |
| Clock.Progress | src/components/SimulationRunning.tsx:360 | The progress value lies in 0..100, is 100 at or past the end for a positive duration, 0 at or before the start, and is otherwise exactly `t / duration` in percent. |
| Clock.ProgressMonotone | src/components/SimulationRunning.tsx:360 | The progress value never decreases as the video plays forward. |
| Clock.InitialDuration | src/components/SimulationRunning.tsx:23 | Without a loaded video the duration is 300 seconds. With one it is 0 until the metadata arrives. |
| Clock.TimerTick | src/components/SimulationRunning.tsx:131-141 | A tick stops the session exactly when the time has reached the duration, and keeps the time then. Otherwise it adds one second without passing the duration. |
| Clock.RunTimerCounts | src/components/SimulationRunning.tsx:128-147 | After `n` ticks the time is `min(n, duration)`. The session has stopped exactly when `n` exceeds the duration. |
| Clock.ClockUpdate | src/components/SimulationRunning.tsx:47-77 | Nothing is written back while paused. While playing, a write happens exactly when the configured time, date or duration text differs from the clock's. A write carries the clock's time text, its date text and the duration text of the elapsed simulated minutes. |
| Clock.ClockUpdateSettles | src/components/SimulationRunning.tsx:68-75 | Once an update is applied, the same second produces no further update. |
| Calendar.CivilFromDays | src/components/SimulationRunning.tsx:53-55 | The calendar fields of a day number form a valid date that maps back to that day. |
| Calendar.MinutesRoundTrip | src/components/SimulationRunning.tsx:53-55 | Reading back the fields of a valid date-time's minute gives those fields. |
| Calendar.MakeMinutes | src/components/SimulationRunning.tsx:38 | On in-range month, day, hour and minute, the constructor gives the minute of that date-time, with a year in 0..99 read as 1900 + year. |
| Calendar.MakeMinutesValid | src/components/SimulationRunning.tsx:38 | On in-range fields (years from 100 on), the `Date` constructor denotes exactly that date-time. |
| Calendar.MakeMinutesTwoDigitYear | src/components/SimulationRunning.tsx:38 | The constructor reads years 1..99 as 1901..1999. |
| Calendar.MakeMinutesMonthCarry | src/components/SimulationRunning.tsx:38 | Month 13 carries into January of the next year. |
| Calendar.MakeMinutesHourCarry | src/components/SimulationRunning.tsx:38 | Hour 24 carries into the next day. |
| Text.Split | src/components/SimulationRunning.tsx:35-37 | The pieces hold no separator, and joining them with the separator gives the text back. |
| Text.SplitJoin | src/components/SimulationRunning.tsx:35-37 | Splitting a joined text gives back its separator-free pieces. |
| Text.ParseNatToString | src/components/SimulationRunning.tsx:35-37 | `Number` of a decimal text gives the number back. |
| Text.Pad2 | src/components/SimulationRunning.tsx:54-55 | The padded text is digits only, two characters below 100, and parses back to the number. |
| Text.ReplaceChar | src/components/dashboard/Dashboard.tsx:132-133 | Replacing keeps the length, and changes exactly the occurrences of the replaced character. |
| SittingMonitor.Notify | src/components/SimulationRunning.tsx:92-103 | The notification effect never changes the sitting time. It clears both flags at zero. It raises both flags on reaching 2700 simulated seconds unannounced. It changes nothing otherwise. |
| SittingMonitor.NotifyIdempotent | src/components/SimulationRunning.tsx:92-103 | Re-running the notification effect after its own update changes nothing. |
| SittingMonitor.Accumulate | src/components/SimulationRunning.tsx:150-169 | An active tick (video past zero, playing) adds exactly `60 * speed` while sitting and resets to 0 otherwise. An inactive tick changes nothing. The flags are untouched. |
| SittingMonitor.Apply | src/components/SimulationRunning.tsx:82-169 | The auto-dismiss only hides the notification. An active tick on a posture other than sitting resets the monitor entirely. An active sitting tick adds `60 * speed`. An inactive tick changes nothing while the sitting time is above zero and below the threshold. |
| SittingMonitor.ApplyConsistent | src/components/SimulationRunning.tsx:82-113 | Ticks and the auto-dismiss keep the invariant that the notification has been raised exactly when the threshold is reached, and is shown only if raised. |
| SittingMonitor.RaisedStaysRaised | src/components/SimulationRunning.tsx:93-96 | Once raised, the notification is not raised again for the rest of a sitting streak. |
| SittingMonitor.RaisedAtMostOnce | src/components/SimulationRunning.tsx:92-103 | Within one sitting streak, the notification is raised at most once. |
| SittingMonitor.SittingSecondsCount | src/components/SimulationRunning.tsx:150-169 | After `k` sitting seconds at speed 1 the sitting time is `60k`. The notification is raised and shown exactly from `k = 45` on. |
| SittingMonitor.FortyFifthSecondRaises | src/components/SimulationRunning.tsx:83-96 | The 45th consecutive sitting second, and no other, raises the notification. |
| AiAnalysis.Summary | src/services/AiAnalysisService.ts:56-83 | The summary is non-empty exactly for the reported kinds: sitting, falling and laying. |
| AiAnalysis.AnalyzeVideo | src/services/AiAnalysisService.ts:31-91 | The analysis produces at most one event. It produces one exactly when an id was drawn and the configured kind is sitting, falling or laying. The summary is non-empty exactly then. The event has:<br>- the configured kind and the drawn id;<br>- the timestamp 45·speed simulated minutes after the start;<br>- an empty snapshot;<br>- critical exactly for a fall.<br>The fall summary embeds the timestamp. |
| AiAnalysis.EventTimestamp | src/services/AiAnalysisService.ts:32-45 | The timestamp is `Invalid Date` exactly when the start time or date does not parse, and otherwise a five-character `HH:MM` text. |
| AiAnalysis.TimestampOnSessionClock | src/services/AiAnalysisService.ts:32-45 | The timestamp is the session clock's time at video second 45, that is, start plus 45·speed minutes. |
| AiAnalysis.EightOClockExample | src/services/AiAnalysisService.ts:32-45 | A session starting at 08:00 at speed 1 reports its event at 08:45. |
| AppState.SplashFinish | src/App.tsx:41 | The splash screen gives way to the login screen, and nothing else changes. |
| AppState.HandleLogin | src/App.tsx:42-46 | Logging in shows the main screen on the overview tab with the demo off, and nothing else changes. |
| AppState.BeginAnalysis | src/App.tsx:48-50 | Starting a session marks it analysing and stores the configuration, and changes nothing else. |
| AppState.FinishAnalysis | src/App.tsx:53-63 | The analysis always ends with analysing off and the session running. The events are the analysis's events, or empty when it failed. |
| AppState.StartSimulation | src/App.tsx:48-64 | A start with the mock analysis ends running the configuration, not analysing, with the analysis's events, and nothing else changes. |
| AppState.StartSimulationRuns | src/App.tsx:48-64 | A started session runs its configuration with at most one pre-computed event. There is one exactly for a reported kind with an id drawn. |
| AppState.StopSimulation | src/App.tsx:66-82 | With a configuration, stopping prepends exactly one online demo camera holding the events and the configuration; the other cameras are untouched. Without a configuration the camera list is unchanged. Both cases end in setup with the demo off. A throwing id generator leaves everything unchanged. |
| AppState.ValidationEvent | src/App.tsx:84-86 | The new event is first, and the previous events follow, unchanged and shifted by one. |
| AppState.TryDemo | src/App.tsx:88-91 | The demo becomes active and no camera's events are selected. Nothing else changes. |
| AppState.ViewEvents | src/App.tsx:93-96 | The camera's events are selected and the demo is off. Nothing else changes. |
| AppState.BackFromEvents | src/App.tsx:98-100 | The events selection is cleared, and nothing else changes. |
| AppState.TabChange | src/App.tsx:102-108 | Any tab but the overview clears the demo and the events selection. Switching to the overview changes only the tab. |
| AppState.DeleteCamera | src/App.tsx:110-112 | Exactly the cameras with other ids remain, and nothing else changes. |
| AppState.DeleteCameraKeepsOrder | src/App.tsx:110-112 | Deleting keeps the other cameras in their order and with every copy: a camera stays between what remains before and after it, unless it carries the id. |
| AppState.WithoutCameraAppend | src/App.tsx:111 | Filtering distributes over concatenation, so the kept cameras stay in their order. |
| AppState.WithoutCameraIdempotent | src/App.tsx:110-112 | Deleting the same id twice is deleting it once. |
| AppState.FindCamera | src/App.tsx:134 | The result is the first camera with the id, or none exactly when no camera has it. |
| AppState.Render | src/App.tsx:115-196 | Splash and login show their screens exactly on those screens, and another tab shows its placeholder. An events view shows a listed camera exactly when the list is non-empty. The running screen shows only the stored configuration of a running session that is not analysing. With the demo open on the overview and no events selected, it shows the analysing screen exactly while analysing, then setup exactly in the setup phase, then the running session when a configuration is stored, and the empty frame otherwise. When no listed camera carries the selected id, the events screen falls back to the first camera. |
| AppState.OverviewPriority | src/App.tsx:129-176 | On the overview, the events screen shows exactly when a camera is selected. Otherwise the demo shows exactly when it is active. Otherwise the dashboard shows. |
| AppState.DemoAndEventsExclusive | src/App.tsx:88-96 | After trying the demo or opening a camera's events, the demo and an events selection are never both on. |
| AppState.ViewEventsShowsCamera | src/App.tsx:131-136 | Opening a listed camera's events on the overview shows the first camera with that id. |
| AppState.TryDemoShowsDemo | src/App.tsx:137-167 | Trying the demo on the overview shows one of the demo screens. |
| AppState.StopReturnsToDashboard | src/App.tsx:80-81 | Stopping a session on the overview, with no events view open, shows the dashboard. |
| AppState.TabRoundTripShowsDashboard | src/App.tsx:102-108 | Leaving the overview shows that tab, and coming back shows the dashboard. |
| AppState.StartupFlow | src/App.tsx:41-46 | Splash leads to login, and login leads to the dashboard, whatever tab or demo was selected, with no camera's events open. |
| Group.RoleChange | src/components/group/GroupManagementScreen.tsx:38-42 | Exactly the members with the id take the new role. Length, order and every other member are unchanged. |
| Group.RoleChangeLastWins | src/components/group/GroupManagementScreen.tsx:41 | Two role changes of the same id leave the second role. |
| Group.DeleteMember | src/components/group/GroupManagementScreen.tsx:44-46 | Exactly the members with other ids remain, and the requests are untouched. |
| Group.DeleteMemberKeepsOrder | src/components/group/GroupManagementScreen.tsx:44-46 | Removing a member keeps the others in their order and with every copy. |
| Group.WithoutMemberAppend | src/components/group/GroupManagementScreen.tsx:45 | Filtering distributes over concatenation, so the remaining members keep their order. |
| Group.Approve | src/components/group/GroupManagementScreen.tsx:48-51 | The request is appended after the unchanged members, and every pending request with its id goes. |
| Group.ApproveKeepsPendingOrder | src/components/group/GroupManagementScreen.tsx:48-51 | Approving keeps the other pending requests in their order and with every copy. |
| Group.ApproveKeepsGroup | src/components/group/GroupManagementScreen.tsx:48-51 | Approving a request whose id no member carries keeps the ids unique. A non-owner request keeps the number of owners. |
| Group.Decline | src/components/group/GroupManagementScreen.tsx:53-55 | Exactly the pending requests with other ids remain. The members are unchanged. |
| Group.DeclineKeepsOrder | src/components/group/GroupManagementScreen.tsx:53-55 | Declining keeps the other pending requests in their order and with every copy. |
| Group.DeclineIdempotent | src/components/group/GroupManagementScreen.tsx:53-55 | Declining twice is declining once. |
| Group.RoleChangeKeepsOwners | src/components/group/GroupManagementScreen.tsx:203-225 | A change to a non-owner role, on an id no owner carries, keeps the number of owners. |
| Group.DeleteKeepsOwners | src/components/group/GroupManagementScreen.tsx:228-235 | Deleting an id no owner carries keeps the number of owners. |
| Group.OfferedActionsKeepOwners | src/components/group/GroupManagementScreen.tsx:203-235 | With unique ids, no role change or delete the screen offers changes the number of owners. |
| Group.InitialGroupOneOwner | src/components/group/GroupManagementScreen.tsx:27-31 | The starting group has distinct ids and exactly one owner. |
| Group.InviteCode | src/components/group/GroupManagementScreen.tsx:16-22 | A stored non-empty code is returned unchanged. Otherwise the code is seven characters: `LG-` and the decimal text of a number in 1000..9999. |
| Group.InviteCodePersists | src/components/group/GroupManagementScreen.tsx:16-22 | The next visit reads the code back unchanged, whatever it draws. |
| Group.PressJoin | src/components/group/GroupManagementScreen.tsx:61-64 | Join sends a request exactly when the code is non-empty. The request carries the typed code, and the field is cleared. |
| Group.JoinSendsOnce | src/components/group/GroupManagementScreen.tsx:256-262 | A second press right after the first sends nothing. |
| Dashboard.Toggle | src/components/dashboard/Dashboard.tsx:24-27 | The menu closes exactly when its own button is pressed while it is open. Otherwise that button's menu opens. |
| Dashboard.ToggleTwice | src/components/dashboard/Dashboard.tsx:24-27 | Pressing the same button twice restores the prior state exactly when no menu or that menu was open. |
| Dashboard.FirstCameraSurvivesDelete | src/components/dashboard/Dashboard.tsx:72 | No delete the dashboard offers removes the placeholder camera `cam-01`. |
| Dashboard.Slashed | src/components/dashboard/Dashboard.tsx:132-133 | Replacing dashes by slashes keeps the length and leaves no dash. |
| Dashboard.SlashedRoundTrip | src/components/dashboard/Dashboard.tsx:132-133 | Putting the dashes back restores the text exactly when it had no slash. |
| Dashboard.Label | src/components/dashboard/Dashboard.tsx:125-144 | The label is:<br>- empty for a camera that is not online;<br>- `19/09/2021` without a date;<br>- the slashed current date when there is no original date;<br>- with an original date, two lines exactly when its slashed form differs from the slashed current date, and the slashed current date on one line otherwise. |
| Dashboard.TwoLinesIffDatesDiffer | src/components/dashboard/Dashboard.tsx:129-143 | For dash-separated dates, two lines appear exactly when an original date is present and differs from the current one. |
| PoseDetection.IsFalling | src/services/PoseDetectionService.ts:51-90 | The result is false without a full 33-landmark pose. Otherwise it is true exactly when twice the nose height minus both ankle heights lies strictly within ±0.7. |
| PoseDetection.OnlyKeyHeightsMatter | src/services/PoseDetectionService.ts:54-62 | The verdict depends only on the heights of the nose and the two ankles. |
| PoseDetection.AnkleSwapInvariant | src/services/PoseDetectionService.ts:62 | Exchanging the left and right ankles does not change the verdict. |
| PoseDetection.StandingAndLyingExamples | src/services/PoseDetectionService.ts:82-89 | A figure with the nose at 0.1 and the ankles at 0.9 is not fallen. One with the nose at 0.8 and the ankles at 0.85 and 0.8 is fallen. |

## Left out

### Replaced by inputs and parameters

- **Pose model and drawing.** MediaPipe loading, landmark detection and canvas drawing are calls into code outside this model. The three classifier signals `isLaying`, `isStanding` and `isWalking` are not defined in the pose service, so they are inputs of each frame (`PostureMachine.Frame`).
- **Snapshots.** Capture through a canvas (`toDataURL`) is a parameter: an arbitrary, possibly empty string.
- **Scheduling.** `requestAnimationFrame`, `setInterval` and `setTimeout` are replaced as follows:
  - the ticks and frames are explicit inputs;
  - the six-second auto-dismiss is the `SittingMonitor.Timeout` input;
  - the 2.5-second analysis delay is dropped;
  - React effect dependencies and batching are taken as "one effect run per input";
  - the side effect inside the `setStickmanPosture` updater runs once per raised event.
- **Randomness and host services.** `crypto.randomUUID` is an `Option<string>` parameter, where `None` means the call threw. `Math.random` is a `real` draw in [0, 1). `localStorage` is the `stored` parameter, and the write-back is the argument of `Group.InviteCodePersists`. The clipboard and `alert` are dropped.
- **Configuration write-back.** The application does not pass `onConfigUpdate` to the running session. `Clock.ClockUpdate` models what the component computes, not a state change of the application.

### Simplifications

- **Locale and time zones.** `toLocaleTimeString` is a fixed 24-hour `HH:MM`. Local time has no daylight-saving shifts, and years are proleptic Gregorian. The running screen's own display is not modelled: the `en-GB` date, and a two-digit time that omits `hour12: false` and so follows the locale's 12- or 24-hour default.
- **Clock.FormatVideoTimeRoundTrip, Clock.SimMinutes, Clock.ClockUpdate, PostureMachine.MakeEvent and SittingMonitor.Accumulate.** These use whole seconds of video time (the floor), not the floating-point `currentTime` that `onTimeUpdate` delivers. The source multiplies the fractional time by the speed, so at 2.5 seconds and speed 10 its clock is 25 minutes on where the model's is 20.
  - The sitting monitor's effect runs on each new whole second, and also on each change of the displayed posture or of the speed. The model takes each run as one `SittingMonitor.Tick`.
- Clock.SimMinutes, SittingMonitor.Accumulate and PostureMachine.MakeEvent take the speed as a whole, non-negative number (`nat`). The setup form reads it with `Number(...)`. Its `min`/`max` bounds are only input hints, so fractional, negative or out-of-range speeds reach the clock and the sitting counter. With a negative speed the source's clock runs backwards from the start, which "never before the start" does not cover.
- Calendar.MakeMinutes ignores the ±8.64e15 ms range of JavaScript `Date`. Beyond that range the source prints `Invalid Date`, while the model keeps counting.
- **Clock.DurationTextRoundTrip.** Covers whole simulated minutes. The duration text written when a video's metadata arrives (`duration * speed` with a fractional duration) is stated only for whole seconds.
- **PoseDetection.IsFalling and Clock.Progress.** Exact reals stand in for IEEE doubles, so rounding near the 0.35 threshold or the clamp bounds is not modelled.
- **Text.JsNumber.** Reads only "" (as 0) and digit strings; every other text is NaN. Number syntaxes with signs, spaces, decimals or exponents are not modelled.
- **Clock.StartMinutesRoundTrip and Clock.ClockStartsAtAnchor.** Require years from 100 on. For years 0..99 the `Date` constructor reads the year as 1900 + year, so the round trip does not hold there. `Calendar.MakeMinutesTwoDigitYear` states what happens instead.
- **Clock.DateStringRoundTrip.** Requires a year of at least 0, since a negative year prints with a minus sign.
- **AppState.Render.** Shows the other tabs as placeholders and does not model their content.

### Not modelled

- **Presentational screens.** Login, splash, navigation, phone frame, events, status, statistics, stick figure and profile are not part of this model. Neither are the dashboard's notification and health-status widgets, nor the click on the dashboard background that closes an open menu.
- **`DemoSetup`.** This is form plumbing. It sends today's UTC date and ignores the date picker.
- **Camera playback.** The play/pause effect and the playback rate touch only the video element.

=== FILE: analysis.dfy ===
/**
  The mock video analysis run before a session starts: after the processing
  delay it reports at most one detected event, of the configured kind, placed
  forty-five seconds into the video, with a fixed summary text.
 */
module AiAnalysis {

  import opened Types
  import opened Calendar
  import opened Text
  import opened Clock

  /** `summary` and `events` of the analysis result. */
  datatype AnalysisResult = AnalysisResult(summary: string, events: seq<SimulationEvent>)

  /** The video second at which the reported event happens. */
  const EventSecond := 45

  const SittingSummary := "จากการวิเคราะห์คลิวิดีโอ ระบบตรวจพบการนั่งทำงานต่อเนื่องเป็นเวลานาน (Prolonged Sitting) ซึ่งมีความเสี่ยงต่ออาการออฟฟิศซินโดรม แนะนำให้มีการแจ้งเตือนเพื่อขยับร่างกาย"
  const FallingSummaryHead := "ระบบ AI ตรวจพบเหตุการณ์ผิดปกติ: การล้ม (Fall Detection) ที่ช่วงเวลา "
  const FallingSummaryTail := " ของวิดีโอ ซึ่งเป็นเหตุการณ์วิกฤต (Critical Event) ระบบได้ทำการบันทึกภาพเหตุการณ์และแจ้งเตือนทันที"
  const LayingSummary := "ระบบตรวจพบการนอนราบ (Laying Down) ซึ่งอาจเป็นการพักผ่อนปกติหรือเหตุฉุกเฉินทางสุขภาพ ระบบจะเฝ้าระวังระยะเวลาการนอนหากนานเกินกำหนด"

  /** The kinds the analysis reports; standing and walking are not reported. */
  predicate Reported(kind: Posture) {
    kind == Sitting || kind == Falling || kind == Laying
  }

  /** `toLocaleTimeString` of the session start advanced by `45 * speed`
      simulated minutes. */
  function EventTimestamp(config: VideoConfig): (r: string)
    ensures StartMinutes(config).None? <==> r == "Invalid Date"
    ensures StartMinutes(config).Some? ==> |r| == 5 && r[2] == ':'
  {
    TimeText(StartMinutes(config), EventSecond, config.speed)
  }

  function Summary(kind: Posture, timestamp: string): (s: string)
    ensures s != [] <==> Reported(kind)
  {
    match kind
    case Sitting => SittingSummary
    case Falling => FallingSummaryHead + timestamp + FallingSummaryTail
    case Laying => LayingSummary
    case _ => ""
  }

  /** `analyzeVideo`. `eventId` is the value of `crypto.randomUUID()`, `None`
      when that call throws: the exception is caught and the empty result
      returned. */
  function AnalyzeVideo(config: VideoConfig, eventId: Option<string>): (r: AnalysisResult)
    ensures |r.events| <= 1
    ensures |r.events| == 1 <==> eventId.Some? && config.eventType.Some? && Reported(config.eventType.value)
    ensures r.summary != [] <==> |r.events| == 1
    ensures forall e :: e in r.events ==>
              && eventId.Some? && e.id == eventId.value
              && Some(e.kind) == config.eventType
              && e.timestamp == EventTimestamp(config)
              && e.snapshotUrl == ""
              && (e.isCritical <==> e.kind == Falling)
              && e.date.None? && e.description.None? && e.duration.None?
    ensures config.eventType == Some(Falling) && eventId.Some? ==>
              r.summary == FallingSummaryHead + EventTimestamp(config) + FallingSummaryTail
  {
    if eventId.None? || config.eventType.None? || !Reported(config.eventType.value) then
      AnalysisResult("", [])
    else
      var kind := config.eventType.value;
      var timestamp := EventTimestamp(config);
      var event := SimulationEvent(eventId.value, kind, timestamp, None, None, "", kind == Falling, None);
      AnalysisResult(Summary(kind, timestamp), [event])
  }

  /** For a session anchored at the minute of `t`, the event lies
      `45 * speed` simulated minutes later: where the running clock stands at
      video second 45. */
  lemma {:induction false} TimestampOnSessionClock(config: VideoConfig, t: DateTime)
    requires ValidDateTime(t) && t.year >= 100
    requires config.startTime == TimeString(ToMinutes(t)) && config.date == DateString(ToMinutes(t))
    ensures EventTimestamp(config) == TimeString(ToMinutes(t) + 45 * config.speed)
  {
    var m := ToMinutes(t);
    StartMinutesRoundTrip(config, t);
    assert EventTimestamp(config) == TimeText(Some(m), EventSecond, config.speed);
    assert SimMinutes(m, EventSecond, config.speed) == m + 45 * config.speed;
  }

  /** The two clock texts of the example. */
  lemma {:induction false} ExampleClockTexts()
    ensures ClockText(8, 0) == "08:00"
    ensures ClockText(8, 45) == "08:45"
  {
    assert Pad2(8) == "08";
    assert Pad2(0) == "00";
    assert Pad2(45) == "45" by {
      assert NatToString(45) == NatToString(4) + [DigitChar(5)];
    }
  }

  /** Forty-five minutes after a whole hour is the same hour, minute 45. */
  lemma {:induction false} FortyFiveMinutesLater(m: int)
    requires FromMinutes(m).minute == 0
    ensures FromMinutes(m + 45) == FromMinutes(m).(minute := 45)
  {
    var later := FromMinutes(m).(minute := 45);
    assert ToMinutes(later) == m + 45;
    MinutesRoundTrip(later);
  }

  /** The clock texts of a whole hour 08:00 and of 45 minutes later. */
  lemma {:induction false} EightOClockTexts(t: DateTime)
    requires ValidDateTime(t) && t.hour == 8 && t.minute == 0
    ensures TimeString(ToMinutes(t)) == "08:00"
    ensures TimeString(ToMinutes(t) + 45) == "08:45"
  {
    var m := ToMinutes(t);
    MinutesRoundTrip(t);
    FortyFiveMinutesLater(m);
    ExampleClockTexts();
  }

  /** A session starting at 08:00 at speed 1 reports its event at 08:45. */
  lemma {:induction false} EightOClockExample(config: VideoConfig, t: DateTime)
    requires ValidDateTime(t) && t.year >= 100 && t.hour == 8 && t.minute == 0
    requires config.startTime == TimeString(ToMinutes(t)) && config.date == DateString(ToMinutes(t))
    requires config.speed == 1
    ensures config.startTime == "08:00"
    ensures EventTimestamp(config) == "08:45"
  {
    TimestampOnSessionClock(config, t);
    EightOClockTexts(t);
  }
}

=== FILE: app.dfy ===
/**
  The application shell: the navigation flags, the session's event log and
  the camera list, the handlers that change them, and the choice of the
  screen to show. Each handler is a function from state to state; the
  asynchronous start of a session is split at its `await` into two steps.
 */
module AppState {

  import opened Types
  import opened AiAnalysis

  datatype Screen = Splash | Login | Main

  datatype Tab = Overview | LayoutTab | StatusTab | UsersTab | SettingsTab

  datatype SimulationPhase = Setup | Running

  datatype App = App(
    screen: Screen,
    tab: Tab,
    simulation: SimulationPhase,
    demoActive: bool,
    eventCamera: Option<string>,
    config: Option<VideoConfig>,
    events: seq<SimulationEvent>,
    analyzing: bool,
    cameras: seq<Camera>)

  /** The placeholder camera the list starts with. */
  const FirstCamera := Camera("cam-01", "Camera 1", LiveCamera, Offline, None, [], None, None)

  const Start := App(Splash, Overview, Setup, false, None, None, [], false, [FirstCamera])

  /** `handleSplashFinish`: on to the login screen. */
  function SplashFinish(a: App): (r: App)
    ensures r.screen == Login && r.(screen := a.screen) == a
  {
    a.(screen := Login)
  }

  /** `handleLogin`: the main screen on the overview tab, with the demo off. */
  function HandleLogin(a: App): (r: App)
    ensures r.screen == Main && r.tab == Overview && !r.demoActive
    ensures r.(screen := a.screen, tab := a.tab, demoActive := a.demoActive) == a
  {
    a.(screen := Main, tab := Overview, demoActive := false)
  }

  /** `handleStartSimulation` up to its `await`. */
  function BeginAnalysis(a: App, config: VideoConfig): (r: App)
    ensures r.analyzing && r.config == Some(config)
    ensures r.(analyzing := a.analyzing, config := a.config) == a
  {
    a.(analyzing := true, config := Some(config))
  }

  /** `handleStartSimulation` after its `await`; `outcome` is `None` when the
      analysis promise rejects. */
  function FinishAnalysis(a: App, outcome: Option<AnalysisResult>): (r: App)
    ensures !r.analyzing && r.simulation == Running
    ensures r.events == (if outcome.Some? then outcome.value.events else [])
    ensures r.(analyzing := a.analyzing, simulation := a.simulation, events := a.events) == a
  {
    var events := match outcome
      case Some(result) => result.events
      case None => [];
    a.(events := events, analyzing := false, simulation := Running)
  }

  /** The whole start of a session with the mock analysis, `eventId` being the
      identifier it draws. */
  function StartSimulation(a: App, config: VideoConfig, eventId: Option<string>): (r: App)
    ensures r.simulation == Running && !r.analyzing && r.config == Some(config)
    ensures r.events == AnalyzeVideo(config, eventId).events
    ensures r.(simulation := a.simulation, analyzing := a.analyzing, config := a.config, events := a.events) == a
  {
    FinishAnalysis(BeginAnalysis(a, config), Some(AnalyzeVideo(config, eventId)))
  }

  /** A started session runs its configuration, holding at most the one
      event the analysis reported. */
  lemma {:induction false} StartSimulationRuns(a: App, config: VideoConfig, eventId: Option<string>)
    ensures var r := StartSimulation(a, config, eventId);
      && r.simulation == Running && !r.analyzing
      && r.config == Some(config)
      && |r.events| <= 1
      && (|r.events| == 1 <==> eventId.Some? && config.eventType.Some? && Reported(config.eventType.value))
  {
  }

  /** The camera a finished session is saved as. */
  function SessionCamera(id: string, config: VideoConfig, events: seq<SimulationEvent>): Camera {
    Camera(id, config.cameraName, Demo, Online, None, events, None, Some(config))
  }

  /** `handleStopSimulation`. `newId` is the value of `crypto.randomUUID()`,
      drawn only when a configuration exists; `None` when that call throws,
      which abandons the handler. */
  function StopSimulation(a: App, newId: Option<string>): (r: App)
    ensures a.config.Some? && newId.Some? ==>
              && |r.cameras| == |a.cameras| + 1
              && r.cameras[0] == SessionCamera(newId.value, a.config.value, a.events)
              && r.cameras[1..] == a.cameras
    ensures a.config.None? ==> r.cameras == a.cameras
    ensures a.config.None? || newId.Some? ==> r.simulation == Setup && !r.demoActive
    ensures a.config.Some? && newId.None? ==> r == a
    ensures r.events == a.events && r.config == a.config && r.tab == a.tab
  {
    match a.config
    case None => a.(simulation := Setup, demoActive := false)
    case Some(config) =>
      match newId
      case None => a
      case Some(id) =>
        a.(cameras := [SessionCamera(id, config, a.events)] + a.cameras,
           simulation := Setup, demoActive := false)
  }

  /** `handleValidationEvent`: the newest event first. */
  function ValidationEvent(a: App, e: SimulationEvent): (r: App)
    ensures |r.events| == |a.events| + 1
    ensures r.events[0] == e
    ensures forall i :: 0 <= i < |a.events| ==> r.events[i + 1] == a.events[i]
    ensures r.(events := a.events) == a
  {
    a.(events := [e] + a.events)
  }

  function TryDemo(a: App): (r: App)
    ensures r.demoActive && r.eventCamera.None?
    ensures r.(demoActive := a.demoActive, eventCamera := a.eventCamera) == a
  {
    a.(demoActive := true, eventCamera := None)
  }

  function ViewEvents(a: App, cameraId: string): (r: App)
    ensures !r.demoActive && r.eventCamera == Some(cameraId)
    ensures r.(demoActive := a.demoActive, eventCamera := a.eventCamera) == a
  {
    a.(eventCamera := Some(cameraId), demoActive := false)
  }

  function BackFromEvents(a: App): (r: App)
    ensures r.eventCamera.None? && r.(eventCamera := a.eventCamera) == a
  {
    a.(eventCamera := None)
  }

  /** `handleTabChange`: leaving the overview drops the demo and the events
      view; returning to it keeps them. */
  function TabChange(a: App, tab: Tab): (r: App)
    ensures r.tab == tab
    ensures tab != Overview ==> !r.demoActive && r.eventCamera.None?
    ensures tab == Overview ==> r == a.(tab := Overview)
    ensures r.(tab := a.tab, demoActive := a.demoActive, eventCamera := a.eventCamera) == a
  {
    if tab != Overview then a.(tab := tab, demoActive := false, eventCamera := None)
    else a.(tab := tab)
  }

  /** The cameras whose id differs from `id`, in their order. */
  function WithoutCamera(cameras: seq<Camera>, id: string): (r: seq<Camera>)
    ensures |r| <= |cameras|
    ensures forall c :: c in r <==> c in cameras && c.id != id
  {
    if cameras == [] then []
    else (if cameras[0].id != id then [cameras[0]] else []) + WithoutCamera(cameras[1..], id)
  }

  /** Removing from a concatenation removes from each part: the kept cameras
      stay in their order. */
  lemma {:induction false} WithoutCameraAppend(x: seq<Camera>, y: seq<Camera>, id: string)
    ensures WithoutCamera(x + y, id) == WithoutCamera(x, id) + WithoutCamera(y, id)
  {
    if x == [] {
      assert x + y == y;
    } else {
      assert (x + y)[0] == x[0];
      assert (x + y)[1..] == x[1..] + y;
      WithoutCameraAppend(x[1..], y, id);
    }
  }

  /** A list without the id is left as it is. */
  lemma {:induction false} WithoutAbsentCamera(cameras: seq<Camera>, id: string)
    requires forall c :: c in cameras ==> c.id != id
    ensures WithoutCamera(cameras, id) == cameras
  {
    if cameras != [] {
      assert cameras == [cameras[0]] + cameras[1..];
      WithoutAbsentCamera(cameras[1..], id);
    }
  }

  /** Deleting twice is deleting once. */
  lemma {:induction false} WithoutCameraIdempotent(cameras: seq<Camera>, id: string)
    ensures WithoutCamera(WithoutCamera(cameras, id), id) == WithoutCamera(cameras, id)
  {
    WithoutAbsentCamera(WithoutCamera(cameras, id), id);
  }

  function DeleteCamera(a: App, id: string): (r: App)
    ensures forall c :: c in r.cameras <==> c in a.cameras && c.id != id
    ensures r.(cameras := a.cameras) == a
  {
    a.(cameras := WithoutCamera(a.cameras, id))
  }

  /** Removing an id around one singled-out camera. */
  lemma {:induction false} WithoutCameraAround(x: seq<Camera>, c: Camera, y: seq<Camera>, id: string)
    ensures WithoutCamera(x + [c] + y, id)
         == WithoutCamera(x, id) + (if c.id != id then [c] else []) + WithoutCamera(y, id)
  {
    var kept := if c.id != id then [c] else [];
    assert WithoutCamera([c], id) == kept by {
      assert [c][1..] == [];
      assert WithoutCamera([c], id) == kept + WithoutCamera([], id);
    }
    WithoutCameraAppend(x, [c], id);
    WithoutCameraAppend(x + [c], y, id);
  }

  /** Deleting keeps the other cameras in their order and with their copies:
      a camera in the middle of the list stays between what remains of the
      cameras before it and of those after it, unless it carries the id. */
  lemma {:induction false} DeleteCameraKeepsOrder(a: App, x: seq<Camera>, c: Camera, y: seq<Camera>, id: string)
    requires a.cameras == x + [c] + y
    ensures DeleteCamera(a, id).cameras
         == WithoutCamera(x, id) + (if c.id != id then [c] else []) + WithoutCamera(y, id)
  {
    WithoutCameraAround(x, c, y, id);
  }

  /** `cameras.find(c => c.id === id)`. */
  function FindCamera(cameras: seq<Camera>, id: string): (r: Option<Camera>)
    ensures r.None? <==> forall c :: c in cameras ==> c.id != id
    ensures r.Some? ==> exists k :: 0 <= k < |cameras| && cameras[k] == r.value && r.value.id == id
                          && forall j :: 0 <= j < k ==> cameras[j].id != id
  {
    if cameras == [] then None
    else if cameras[0].id == id then Some(cameras[0])
    else
      var rest := FindCamera(cameras[1..], id);
      if rest.Some? then
        ghost var k :| 0 <= k < |cameras[1..]| && cameras[1..][k] == rest.value && rest.value.id == id
                       && forall j :: 0 <= j < k ==> cameras[1..][j].id != id;
        assert cameras[k + 1] == rest.value;
        rest
      else rest
  }

  /** What the phone frame shows. */
  datatype View =
    | SplashView
    | LoginView
    | EventsView(camera: Option<Camera>)
    | AnalyzingView
    | SetupView
    | RunningView(config: VideoConfig)
    | EmptyDemoView
    | DashboardView
    | PlaceholderView(tab: Tab)

  /** `activeEventCameraId` is truthy: present and not empty. */
  predicate EventsSelected(a: App) {
    a.eventCamera.Some? && a.eventCamera.value != ""
  }

  /** `renderContent`: the events screen of the selected camera (falling back
      to the first camera), else the demo, else the dashboard. */
  function Render(a: App): (v: View)
    ensures a.screen == Splash <==> v == SplashView
    ensures a.screen == Login <==> v == LoginView
    ensures a.screen == Main && a.tab != Overview <==> v.PlaceholderView?
    ensures v.PlaceholderView? ==> v.tab == a.tab
    ensures v.EventsView? ==> (v.camera.Some? <==> a.cameras != []) && (v.camera.Some? ==> v.camera.value in a.cameras)
    ensures v.RunningView? ==> a.config == Some(v.config) && a.simulation.Running? && !a.analyzing
    ensures a.screen == Main && a.tab == Overview && !EventsSelected(a) && a.demoActive ==>
              && (v == AnalyzingView <==> a.analyzing)
              && (v == SetupView <==> !a.analyzing && a.simulation == Setup)
              && (v.RunningView? <==> !a.analyzing && a.simulation != Setup && a.config.Some?)
              && (v == EmptyDemoView <==> !a.analyzing && a.simulation != Setup && a.config.None?)
    ensures a.screen == Main && a.tab == Overview && EventsSelected(a) && a.cameras != []
            && (forall c :: c in a.cameras ==> c.id != a.eventCamera.value) ==>
              v == EventsView(Some(a.cameras[0]))
  {
    match a.screen
    case Splash => SplashView
    case Login => LoginView
    case Main =>
      if a.tab != Overview then PlaceholderView(a.tab)
      else if EventsSelected(a) then
        var found := FindCamera(a.cameras, a.eventCamera.value);
        EventsView(if found.Some? then found else if a.cameras != [] then Some(a.cameras[0]) else None)
      else if a.demoActive then
        if a.analyzing then AnalyzingView
        else if a.simulation == Setup then SetupView
        else if a.config.Some? then RunningView(a.config.value)
        else EmptyDemoView
      else DashboardView
  }

  /** Predicates naming the three overview screens. */
  predicate ShowsEvents(v: View) { v.EventsView? }
  predicate ShowsDemo(v: View) {
    v.AnalyzingView? || v.SetupView? || v.RunningView? || v.EmptyDemoView?
  }

  /** On the overview the events screen wins over the demo, which wins over
      the dashboard. */
  lemma {:induction false} OverviewPriority(a: App)
    requires a.screen == Main && a.tab == Overview
    ensures ShowsEvents(Render(a)) <==> EventsSelected(a)
    ensures ShowsDemo(Render(a)) <==> !EventsSelected(a) && a.demoActive
    ensures Render(a) == DashboardView <==> !EventsSelected(a) && !a.demoActive
  {
  }

  /** Trying the demo and opening a camera's events never leave both the demo
      and an events view selected. */
  lemma {:induction false} DemoAndEventsExclusive(a: App, cameraId: string)
    ensures !(TryDemo(a).demoActive && EventsSelected(TryDemo(a)))
    ensures !(ViewEvents(a, cameraId).demoActive && EventsSelected(ViewEvents(a, cameraId)))
  {
  }

  /** Opening a camera's events on the overview shows that camera, the first
      one with the id, when it is listed. */
  lemma {:induction false} ViewEventsShowsCamera(a: App, cameraId: string, k: nat)
    requires a.screen == Main && a.tab == Overview && cameraId != ""
    requires k < |a.cameras| && a.cameras[k].id == cameraId
    requires forall j :: 0 <= j < k ==> a.cameras[j].id != cameraId
    ensures Render(ViewEvents(a, cameraId)) == EventsView(Some(a.cameras[k]))
  {
    var found := FindCamera(a.cameras, cameraId);
    assert a.cameras[k] in a.cameras;
    var k' :| 0 <= k' < |a.cameras| && a.cameras[k'] == found.value && found.value.id == cameraId
              && forall j :: 0 <= j < k' ==> a.cameras[j].id != cameraId;
  }

  /** Trying the demo on the overview shows the demo. */
  lemma {:induction false} TryDemoShowsDemo(a: App)
    requires a.screen == Main && a.tab == Overview
    ensures ShowsDemo(Render(TryDemo(a)))
  {
  }

  /** Stopping a session on the overview, with no events view open, returns to
      the dashboard. */
  lemma {:induction false} StopReturnsToDashboard(a: App, newId: Option<string>)
    requires a.screen == Main && a.tab == Overview && !EventsSelected(a)
    requires a.config.None? || newId.Some?
    ensures Render(StopSimulation(a, newId)) == DashboardView
  {
  }

  /** Leaving the overview shows that tab's placeholder, and coming back shows
      the dashboard. */
  lemma {:induction false} TabRoundTripShowsDashboard(a: App, tab: Tab)
    requires a.screen == Main && tab != Overview
    ensures Render(TabChange(a, tab)) == PlaceholderView(tab)
    ensures Render(TabChange(TabChange(a, tab), Overview)) == DashboardView
  {
  }

  /** The splash screen leads to the login screen, and logging in to the
      dashboard, whatever tab or demo was selected before, with no camera's
      events open. */
  lemma {:induction false} StartupFlow(a: App)
    requires !EventsSelected(a)
    ensures Render(Start) == SplashView
    ensures Render(SplashFinish(Start)) == LoginView
    ensures Render(HandleLogin(SplashFinish(Start))) == DashboardView
    ensures Render(HandleLogin(a)) == DashboardView
  {
  }
}

=== FILE: calendar.dfy ===
/**
  Civil date-time arithmetic on the proleptic Gregorian calendar, counted in
  whole minutes from 1970-01-01 00:00 local time (no daylight saving). This is
  the part of the JavaScript `Date` object the simulated clock uses: the
  multi-argument constructor with its overflow carrying, adding milliseconds,
  and reading back year, month, day, hours and minutes.
 */
module Calendar {

  const EpochYear := 1970
  const MinutesPerDay := 1440

  predicate IsLeapYear(y: int) {
    y % 4 == 0 && (y % 100 != 0 || y % 400 == 0)
  }

  function YearLength(y: int): nat {
    if IsLeapYear(y) then 366 else 365
  }

  function DaysInMonth(y: int, m: int): nat
    requires 1 <= m <= 12
  {
    if m == 2 then (if IsLeapYear(y) then 29 else 28)
    else if m == 4 || m == 6 || m == 9 || m == 11 then 30
    else 31
  }

  datatype Date = Date(year: int, month: int, day: int)

  datatype DateTime = DateTime(year: int, month: int, day: int, hour: int, minute: int)

  predicate ValidDate(d: Date) {
    1 <= d.month <= 12 && 1 <= d.day <= DaysInMonth(d.year, d.month)
  }

  predicate ValidDateTime(t: DateTime) {
    ValidDate(DateOf(t)) && 0 <= t.hour < 24 && 0 <= t.minute < 60
  }

  function DateOf(t: DateTime): Date {
    Date(t.year, t.month, t.day)
  }

  /** Days from 1 January 1970 to 1 January of year `y` (negative before 1970). */
  function DaysBeforeYear(y: int): int
    decreases if y >= EpochYear then y - EpochYear else EpochYear - y
  {
    if y == EpochYear then 0
    else if y > EpochYear then DaysBeforeYear(y - 1) + YearLength(y - 1)
    else DaysBeforeYear(y + 1) - YearLength(y)
  }

  /** Days of year `y` that precede the first of month `m`; month 13 stands
      for the first of the next year. */
  function DaysBeforeMonth(y: int, m: int): nat
    requires 1 <= m <= 13
  {
    [0, 31, 59, 90, 120, 151, 181, 212, 243, 273, 304, 334, 365][m - 1]
    + (if IsLeapYear(y) && m > 2 then 1 else 0)
  }

  lemma {:induction false} DaysBeforeYearStep(y: int)
    ensures DaysBeforeYear(y + 1) == DaysBeforeYear(y) + YearLength(y)
  {
  }

  lemma {:induction false} DaysBeforeMonthStep(y: int, m: int)
    requires 1 <= m <= 12
    ensures DaysBeforeMonth(y, m + 1) == DaysBeforeMonth(y, m) + DaysInMonth(y, m)
    ensures DaysBeforeMonth(y, 13) == YearLength(y)
  {
  }

  /** The first of every later year lies at least a whole year later. */
  lemma {:induction false} DaysBeforeYearGrows(a: int, b: int)
    requires a < b
    ensures DaysBeforeYear(b) >= DaysBeforeYear(a) + YearLength(a)
    decreases b - a
  {
    DaysBeforeYearStep(b - 1);
    if a < b - 1 {
      DaysBeforeYearGrows(a, b - 1);
    }
  }

  /** The first of every later month lies at least a whole month later. */
  lemma {:induction false} DaysBeforeMonthGrows(y: int, a: int, b: int)
    requires 1 <= a < b <= 13
    ensures DaysBeforeMonth(y, b) >= DaysBeforeMonth(y, a) + DaysInMonth(y, a)
    decreases b - a
  {
    DaysBeforeMonthStep(y, b - 1);
    if a < b - 1 {
      DaysBeforeMonthGrows(y, a, b - 1);
    }
  }

  /** Day number of a valid date, 1970-01-01 being day 0. */
  function DaysFromCivil(d: Date): int
    requires ValidDate(d)
  {
    DaysBeforeYear(d.year) + DaysBeforeMonth(d.year, d.month) + d.day - 1
  }

  /** The year holding day `n` counted from 1 January of year `y`, and the
      day's offset within that year. */
  function YearOf(n: int, y: int): (r: (int, int))
    ensures 0 <= r.1 < YearLength(r.0)
    ensures DaysBeforeYear(r.0) + r.1 == DaysBeforeYear(y) + n
    decreases (if n < 0 then 1 else 0), (if n < 0 then -n else n)
  {
    DaysBeforeYearStep(y - 1);
    DaysBeforeYearStep(y);
    if n < 0 then YearOf(n + YearLength(y - 1), y - 1)
    else if n < YearLength(y) then (y, n)
    else YearOf(n - YearLength(y), y + 1)
  }

  /** The month from `m` onwards holding day-of-year `doy`, and the day of
      the month. */
  function MonthOf(y: int, doy: int, m: int): (r: (int, int))
    requires 1 <= m <= 12
    requires DaysBeforeMonth(y, m) <= doy < YearLength(y)
    ensures ValidDate(Date(y, r.0, r.1))
    ensures DaysBeforeMonth(y, r.0) + r.1 - 1 == doy
    decreases 12 - m
  {
    DaysBeforeMonthStep(y, m);
    if doy < DaysBeforeMonth(y, m + 1) then (m, doy - DaysBeforeMonth(y, m) + 1)
    else MonthOf(y, doy, m + 1)
  }

  /** The calendar date of day number `n`. */
  function CivilFromDays(n: int): (d: Date)
    ensures ValidDate(d)
    ensures DaysFromCivil(d) == n
  {
    var (y, doy) := YearOf(n, EpochYear);
    DaysBeforeMonthStep(y, 1);
    var (m, day) := MonthOf(y, doy, 1);
    Date(y, m, day)
  }

  /** Different valid dates have different day numbers. */
  lemma {:induction false} DaysFromCivilInjective(a: Date, b: Date)
    requires ValidDate(a) && ValidDate(b)
    requires DaysFromCivil(a) == DaysFromCivil(b)
    ensures a == b
  {
    DaysBeforeMonthStep(a.year, a.month);
    DaysBeforeMonthStep(b.year, b.month);
    if a.year < b.year {
      DaysBeforeYearGrows(a.year, b.year);
    } else if b.year < a.year {
      DaysBeforeYearGrows(b.year, a.year);
    }
    if a.month < b.month {
      DaysBeforeMonthGrows(a.year, a.month, b.month);
    } else if b.month < a.month {
      DaysBeforeMonthGrows(a.year, b.month, a.month);
    }
  }

  /** Day numbering and calendar decomposition are inverse bijections. */
  lemma {:induction false} CivilDaysRoundTrip(d: Date)
    requires ValidDate(d)
    ensures CivilFromDays(DaysFromCivil(d)) == d
  {
    DaysFromCivilInjective(CivilFromDays(DaysFromCivil(d)), d);
  }

  /** Minutes since 1970-01-01 00:00 of a valid date-time. */
  function ToMinutes(t: DateTime): int
    requires ValidDateTime(t)
  {
    DaysFromCivil(DateOf(t)) * MinutesPerDay + t.hour * 60 + t.minute
  }

  /** The local calendar fields of minute `m`: `getFullYear`, `getMonth() + 1`,
      `getDate`, `getHours`, `getMinutes`. */
  function FromMinutes(m: int): (t: DateTime)
    ensures ValidDateTime(t)
    ensures ToMinutes(t) == m
  {
    var d := CivilFromDays(m / MinutesPerDay);
    var rem := m % MinutesPerDay;
    DateTime(d.year, d.month, d.day, rem / 60, rem % 60)
  }

  /** Different valid date-times are different minutes. */
  lemma {:induction false} ToMinutesInjective(a: DateTime, b: DateTime)
    requires ValidDateTime(a) && ValidDateTime(b)
    requires ToMinutes(a) == ToMinutes(b)
    ensures a == b
  {
    DaysFromCivilInjective(DateOf(a), DateOf(b));
  }

  /** Reading back the fields of a valid date-time's minute gives the fields. */
  lemma {:induction false} MinutesRoundTrip(t: DateTime)
    requires ValidDateTime(t)
    ensures FromMinutes(ToMinutes(t)) == t
  {
    ToMinutesInjective(FromMinutes(ToMinutes(t)), t);
  }

  /** `new Date(year, month - 1, day, hours, minutes)`: a year in 0..99 means
      1900 + year, and months beyond December, days beyond the month's end,
      hours beyond 23 and minutes beyond 59 carry into the next unit. */
  function MakeMinutes(year: int, month: int, day: int, hours: int, minutes: int): (r: int)
    ensures var t := DateTime(if 0 <= year <= 99 then 1900 + year else year, month, day, hours, minutes);
      ValidDateTime(t) ==> r == ToMinutes(t)
  {
    var y := if 0 <= year <= 99 then 1900 + year else year;
    var monthIndex := month - 1;
    var first := Date(y + monthIndex / 12, monthIndex % 12 + 1, 1);
    var r := (DaysFromCivil(first) + day - 1) * MinutesPerDay + hours * 60 + minutes;
    var t := DateTime(y, month, day, hours, minutes);
    if ValidDateTime(t) then
      assert monthIndex / 12 == 0 && monthIndex % 12 + 1 == month;
      FirstOfMonth(t);
      r
    else r
  }

  /** A valid date lies `day - 1` days after the first of its month. */
  lemma {:induction false} FirstOfMonth(t: DateTime)
    requires ValidDateTime(t)
    ensures DaysFromCivil(Date(t.year, t.month, 1)) + t.day - 1 == DaysFromCivil(DateOf(t))
  {
  }

  /** In-range month, day, hour and minute denote exactly that date-time. */
  lemma {:induction false} MakeMinutesOfValid(t: DateTime)
    requires ValidDateTime(t) && (t.year < 0 || t.year >= 100)
    ensures MakeMinutes(t.year, t.month, t.day, t.hour, t.minute) == ToMinutes(t)
  {
    var monthIndex := t.month - 1;
    assert monthIndex / 12 == 0 && monthIndex % 12 + 1 == t.month;
    var first := Date(t.year, t.month, 1);
    assert DaysFromCivil(first) + t.day - 1 == DaysFromCivil(DateOf(t));
  }

  /** On in-range fields of a year from 100 on, the constructor denotes exactly
      that date-time. */
  lemma {:induction false} MakeMinutesValid(t: DateTime)
    requires ValidDateTime(t) && (t.year < 0 || t.year >= 100)
    ensures MakeMinutes(t.year, t.month, t.day, t.hour, t.minute) == ToMinutes(t)
    ensures FromMinutes(MakeMinutes(t.year, t.month, t.day, t.hour, t.minute)) == t
  {
    MakeMinutesOfValid(t);
    MinutesRoundTrip(t);
  }

  /** Years 1901..1999 leap exactly when their last two digits do. */
  lemma {:induction false} LeapYearOf1900s(y: int)
    requires 1 <= y <= 99
    ensures IsLeapYear(1900 + y) == IsLeapYear(y)
  {
    assert (1900 + y) % 4 == y % 4;
    assert (1900 + y) % 100 == y % 100 == y;
  }

  /** A two-digit year is read as a year of the twentieth century. */
  lemma {:induction false} MakeMinutesTwoDigitYear(t: DateTime)
    requires ValidDateTime(t) && 1 <= t.year <= 99
    ensures FromMinutes(MakeMinutes(t.year, t.month, t.day, t.hour, t.minute))
         == t.(year := 1900 + t.year)
  {
    var u := t.(year := 1900 + t.year);
    LeapYearOf1900s(t.year);
    assert DaysInMonth(u.year, u.month) == DaysInMonth(t.year, t.month);
    MakeMinutesOfValid(u);
    assert MakeMinutes(t.year, t.month, t.day, t.hour, t.minute)
        == MakeMinutes(u.year, u.month, u.day, u.hour, u.minute);
    MinutesRoundTrip(u);
  }

  /** Month thirteen is January of the following year. */
  lemma {:induction false} MakeMinutesMonthCarry(year: int, month: int, day: int, hours: int, minutes: int)
    requires year >= 100
    ensures MakeMinutes(year, month + 12, day, hours, minutes)
         == MakeMinutes(year + 1, month, day, hours, minutes)
  {
  }

  /** Minute 24 * 60 of a day is midnight of the next day. */
  lemma {:induction false} MakeMinutesHourCarry(year: int, month: int, day: int, hours: int, minutes: int)
    ensures MakeMinutes(year, month, day, hours + 24, minutes)
         == MakeMinutes(year, month, day + 1, hours, minutes)
  {
  }
}

=== FILE: clock.dfy ===
/**
  The simulated clock of a running session: parsing the configured start time
  and date, advancing by `speed` simulated minutes per second of video, and the
  texts shown for it (the `HH:MM` time, the `YYYY-MM-DD` date of ISO 8601
  extended calendar-date form, the `H.MM` duration in hours, the `MM:SS` video
  clock and the progress bar value), together with the one-second timer used
  when no video file is loaded.
 */
module Clock {

  import opened Types
  import opened Text
  import opened Calendar

  /** `startTime.split(':').map(Number)` read as `[hours, minutes]`; a missing
      or non-numeric part makes the constructed date invalid (`None`). */
  function ParseTime(s: string): Option<(nat, nat)> {
    var parts := Split(s, ':');
    if |parts| < 2 then None
    else match (JsNumber(parts[0]), JsNumber(parts[1]))
      case (Some(h), Some(m)) => Some((h, m))
      case _ => None
  }

  /** `date.split('-').map(Number)` read as `[year, month, day]`. */
  function ParseDate(s: string): Option<(nat, nat, nat)> {
    var parts := Split(s, '-');
    if |parts| < 3 then None
    else match (JsNumber(parts[0]), JsNumber(parts[1]), JsNumber(parts[2]))
      case (Some(y), Some(m), Some(d)) => Some((y, m, d))
      case _ => None
  }

  /** The session anchor `startDateTime`, in minutes since 1970-01-01 00:00;
      `None` is the invalid date an unparsable start time or date yields. */
  function StartMinutes(config: VideoConfig): (r: Option<int>)
    ensures r.None? <==> ParseTime(config.startTime).None? || ParseDate(config.date).None?
    ensures r.Some? ==>
              var (h, mi) := ParseTime(config.startTime).value;
              var (y, mo, d) := ParseDate(config.date).value;
              r.value == MakeMinutes(y, mo, d, h, mi)
  {
    match (ParseTime(config.startTime), ParseDate(config.date))
      case (Some((h, mi)), Some((y, mo, d))) => Some(MakeMinutes(y, mo, d, h, mi))
      case _ => None
  }

  /** Simulated minute after `t` seconds of video: one second of video is
      `speed` simulated minutes. */
  function SimMinutes(start: int, t: nat, speed: nat): (m: int)
    ensures t == 0 ==> m == start
    ensures m >= start
  {
    start + t * speed
  }

  /** Simulated time never runs backwards while the video time advances. */
  lemma {:induction false} SimMinutesMonotone(start: int, t1: nat, t2: nat, speed: nat)
    requires t1 <= t2
    ensures SimMinutes(start, t1, speed) <= SimMinutes(start, t2, speed)
    ensures SimMinutes(start, t2, speed) - SimMinutes(start, t1, speed) == (t2 - t1) * speed
  {
  }

  /** Two zero-padded numbers around a colon. */
  function ClockText(a: nat, b: nat): string {
    Pad2(a) + ":" + Pad2(b)
  }

  /** 24-hour `HH:MM` of a minute (`toLocaleTimeString` with two-digit hour and
      minute and `hour12: false`). */
  function TimeString(m: int): (r: string)
    ensures |r| == 5 && r[2] == ':'
    ensures ParseNat(r[..2]) == Some(FromMinutes(m).hour)
    ensures ParseNat(r[3..]) == Some(FromMinutes(m).minute)
  {
    var t := FromMinutes(m);
    var r := ClockText(t.hour, t.minute);
    assert r[..2] == Pad2(t.hour) && r[3..] == Pad2(t.minute);
    r
  }

  /** `${getFullYear()}-${pad2(getMonth() + 1)}-${pad2(getDate())}`. */
  function DateString(m: int): (r: string)
    ensures FromMinutes(m).year >= 0 ==>
              && |r| >= 7 && r[|r| - 3] == '-' && r[|r| - 6] == '-'
              && ParseNat(r[..|r| - 6]) == Some(FromMinutes(m).year)
              && ParseNat(r[|r| - 5..|r| - 3]) == Some(FromMinutes(m).month)
              && ParseNat(r[|r| - 2..]) == Some(FromMinutes(m).day)
  {
    var t := FromMinutes(m);
    DatePiecesRead(t.year, t.month, t.day);
    IntToString(t.year) + "-" + Pad2(t.month) + "-" + Pad2(t.day)
  }

  /** The pieces of a `YYYY-MM-DD` text sit at fixed places from its end. */
  lemma {:induction false} DatePiecesRead(y: int, mo: nat, d: nat)
    requires mo < 100 && d < 100
    ensures var r := IntToString(y) + "-" + Pad2(mo) + "-" + Pad2(d);
      y >= 0 ==>
      && |r| >= 7 && r[|r| - 3] == '-' && r[|r| - 6] == '-'
      && ParseNat(r[..|r| - 6]) == Some(y)
      && ParseNat(r[|r| - 5..|r| - 3]) == Some(mo)
      && ParseNat(r[|r| - 2..]) == Some(d)
  {
    if y >= 0 {
      ParseNatToString(y);
      DashedParts(NatToString(y), Pad2(mo), Pad2(d));
    }
  }

  /** A text `a-b-c` with `b` and `c` two characters long, cut at the dashes. */
  lemma {:induction false} DashedParts(a: string, b: string, c: string)
    requires |b| == 2 && |c| == 2
    ensures var r := a + "-" + b + "-" + c;
      && |r| == |a| + 6 && r[|r| - 3] == '-' && r[|r| - 6] == '-'
      && r[..|r| - 6] == a && r[|r| - 5..|r| - 3] == b && r[|r| - 2..] == c
  {
  }

  /** The time text of an anchor that may be invalid. */
  function TimeText(start: Option<int>, t: nat, speed: nat): string {
    match start
      case None => "Invalid Date"
      case Some(s) => TimeString(SimMinutes(s, t, speed))
  }

  /** The date text of an anchor that may be invalid: every field of an invalid
      date reads as `NaN`. */
  function DateText(start: Option<int>, t: nat, speed: nat): string {
    match start
      case None => "NaN-NaN-NaN"
      case Some(s) => DateString(SimMinutes(s, t, speed))
  }

  lemma {:induction false} DigitsHaveNoSeparator(s: string, c: char)
    requires AllDigits(s) && !IsDigit(c)
    ensures c !in s
  {
  }

  /** The parser of start times reads back any two zero-padded numbers. */
  lemma {:induction false} ParseClockText(a: nat, b: nat)
    ensures |ClockText(a, b)| >= 5
    ensures a < 100 && b < 100 ==> |ClockText(a, b)| == 5 && ClockText(a, b)[2] == ':'
    ensures ParseTime(ClockText(a, b)) == Some((a, b))
  {
    DigitsHaveNoSeparator(Pad2(a), ':');
    DigitsHaveNoSeparator(Pad2(b), ':');
    SplitJoin([Pad2(a), Pad2(b)], ':');
    assert Join([Pad2(a), Pad2(b)], ':') == ClockText(a, b);
  }

  /** The time text of every minute is five characters `HH:MM` and parses back
      to that minute's hour and minute. */
  lemma {:induction false} TimeStringRoundTrip(m: int)
    ensures |TimeString(m)| == 5 && TimeString(m)[2] == ':'
    ensures ParseTime(TimeString(m)) == Some((FromMinutes(m).hour, FromMinutes(m).minute))
  {
    var t := FromMinutes(m);
    ParseClockText(t.hour, t.minute);
  }

  /** Three pieces joined by a separator. */
  lemma {:induction false} JoinThree(a: string, b: string, c: string, sep: char)
    ensures Join([a, b, c], sep) == a + [sep] + b + [sep] + c
  {
    var pieces := [a, b, c];
    assert pieces[1..] == [b, c] && pieces[1..][1..] == [c];
    assert Join([b, c], sep) == b + [sep] + c;
    assert Join(pieces, sep) == a + [sep] + (b + [sep] + c);
  }

  /** The parser of dates reads back a year and two zero-padded numbers. */
  lemma {:induction false} ParseDateText(y: nat, mo: nat, d: nat)
    ensures ParseDate(NatToString(y) + "-" + Pad2(mo) + "-" + Pad2(d)) == Some((y, mo, d))
  {
    var ys, ms, ds := NatToString(y), Pad2(mo), Pad2(d);
    DigitsHaveNoSeparator(ys, '-');
    DigitsHaveNoSeparator(ms, '-');
    DigitsHaveNoSeparator(ds, '-');
    JoinThree(ys, ms, ds, '-');
    SplitJoin([ys, ms, ds], '-');
    ParseNatToString(y);
    ParseDatePieces(ys + "-" + ms + "-" + ds, y, mo, d);
  }

  /** A date text whose three pieces read as numbers parses to those numbers. */
  lemma {:induction false} ParseDatePieces(s: string, y: nat, mo: nat, d: nat)
    requires |Split(s, '-')| == 3
    requires JsNumber(Split(s, '-')[0]) == Some(y)
    requires JsNumber(Split(s, '-')[1]) == Some(mo)
    requires JsNumber(Split(s, '-')[2]) == Some(d)
    ensures ParseDate(s) == Some((y, mo, d))
  {
  }

  /** For years from 0 on, the date text is `YYYY-MM-DD` with two-digit month
      and day, and parses back to the date's fields. */
  lemma {:induction false} DateStringRoundTrip(m: int)
    requires FromMinutes(m).year >= 0
    ensures var s := DateString(m);
      |s| >= 7 && s[|s| - 3] == '-' && s[|s| - 6] == '-'
    ensures ParseDate(DateString(m)) == Some((FromMinutes(m).year, FromMinutes(m).month, FromMinutes(m).day))
  {
    var t := FromMinutes(m);
    DateFieldsText(t.year, t.month, t.day);
  }

  /** The date text of calendar fields: dashes at the fixed places from the
      end, and the fields read back. */
  lemma {:induction false} DateFieldsText(y: nat, mo: nat, d: nat)
    requires mo < 100 && d < 100
    ensures var s := NatToString(y) + "-" + Pad2(mo) + "-" + Pad2(d);
      |s| >= 7 && s[|s| - 3] == '-' && s[|s| - 6] == '-'
      && ParseDate(s) == Some((y, mo, d))
  {
    ParseDateText(y, mo, d);
  }

  /** Re-anchoring on the time and date texts of a minute gives that same
      minute back, for years from 100 on: writing the simulated clock back
      into the configuration does not make the clock drift. */
  lemma {:induction false} StartMinutesRoundTrip(config: VideoConfig, t: DateTime)
    requires ValidDateTime(t) && t.year >= 100
    requires config.startTime == TimeString(ToMinutes(t)) && config.date == DateString(ToMinutes(t))
    ensures StartMinutes(config) == Some(ToMinutes(t))
  {
    var m := ToMinutes(t);
    MinutesRoundTrip(t);
    TimeStringRoundTrip(m);
    DateStringRoundTrip(m);
    MakeMinutesValid(t);
  }

  /** At video time zero the clock shows the configured start. */
  lemma {:induction false} ClockStartsAtAnchor(config: VideoConfig, t: DateTime, speed: nat)
    requires ValidDateTime(t) && t.year >= 100
    requires config.startTime == TimeString(ToMinutes(t)) && config.date == DateString(ToMinutes(t))
    ensures TimeText(StartMinutes(config), 0, speed) == config.startTime
    ensures DateText(StartMinutes(config), 0, speed) == config.date
  {
    StartMinutesRoundTrip(config, t);
  }

  const DurationSuffix := " ชั่วโมง"

  /** `${hours}.${pad2(minutes)} ชั่วโมง` for a number of simulated minutes. */
  function DurationText(totalMinutes: nat): (r: string)
    ensures |r| >= |DurationSuffix| + 4 && r[|r| - |DurationSuffix|..] == DurationSuffix
    ensures var n := |r| - |DurationSuffix|;
      && r[n - 3] == '.'
      && ParseNat(r[..n - 3]) == Some(totalMinutes / 60)
      && ParseNat(r[n - 2..n]) == Some(totalMinutes % 60) && totalMinutes % 60 < 60
  {
    var h := NatToString(totalMinutes / 60);
    var mm := Pad2(totalMinutes % 60);
    var r := h + "." + mm + DurationSuffix;
    var n := |r| - |DurationSuffix|;
    ParseNatToString(totalMinutes / 60);
    assert r[n - |DurationSuffix| + |DurationSuffix|..] == DurationSuffix;
    assert r[..n - 3] == h && r[n - 2..n] == mm;
    r
  }

  /** Reads a duration text back into minutes: hours, a dot, exactly two digits
      of minutes below 60, and the unit suffix. */
  function ParseDurationText(s: string): Option<nat> {
    var n := |DurationSuffix|;
    if |s| < n || s[|s| - n..] != DurationSuffix then None
    else
      var parts := Split(s[..|s| - n], '.');
      if |parts| != 2 || |parts[1]| != 2 then None
      else match (ParseNat(parts[0]), ParseNat(parts[1]))
        case (Some(h), Some(mm)) => if mm < 60 then Some(h * 60 + mm) else None
        case _ => None
  }

  /** The duration text holds hours and minutes below 60 that add up to the
      total: it reads back to the total. */
  lemma {:induction false} DurationTextRoundTrip(totalMinutes: nat)
    ensures ParseDurationText(DurationText(totalMinutes)) == Some(totalMinutes)
  {
    ParseDurationOf(totalMinutes, NatToString(totalMinutes / 60) + "." + Pad2(totalMinutes % 60));
  }

  /** The parser on the hours, the dot and the padded minutes of a total. */
  lemma {:induction false} ParseDurationOf(totalMinutes: nat, body: string)
    requires body == NatToString(totalMinutes / 60) + "." + Pad2(totalMinutes % 60)
    ensures ParseDurationText(body + DurationSuffix) == Some(totalMinutes)
  {
    SuffixParts(body, DurationSuffix);
    DottedSplit(totalMinutes / 60, totalMinutes % 60);
    ParseNatToString(totalMinutes / 60);
  }

  /** A text with a suffix, cut at the suffix. */
  lemma {:induction false} SuffixParts(body: string, suffix: string)
    ensures var s := body + suffix;
      s[|s| - |suffix|..] == suffix && s[..|s| - |suffix|] == body
  {
  }

  /** Hours and padded minutes around a dot split back into the two. */
  lemma {:induction false} DottedSplit(a: nat, b: nat)
    ensures Split(NatToString(a) + "." + Pad2(b), '.') == [NatToString(a), Pad2(b)]
  {
    var h, mm := NatToString(a), Pad2(b);
    DigitsHaveNoSeparator(h, '.');
    DigitsHaveNoSeparator(mm, '.');
    SplitJoin([h, mm], '.');
    assert Join([h, mm], '.') == h + "." + mm;
  }

  /** `formatVideoTime`: minutes and seconds of a video position, each padded
      to two digits. */
  function FormatVideoTime(totalSeconds: nat): (r: string)
    ensures |r| >= 5 && r[|r| - 3] == ':'
    ensures ParseNat(r[..|r| - 3]) == Some(totalSeconds / 60)
    ensures ParseNat(r[|r| - 2..]) == Some(totalSeconds % 60) && totalSeconds % 60 < 60
  {
    var mm := Pad2(totalSeconds / 60);
    var r := ClockText(totalSeconds / 60, totalSeconds % 60);
    assert r[..|r| - 3] == mm && r[|r| - 2..] == Pad2(totalSeconds % 60);
    r
  }

  /** The video clock reads back as minutes and seconds below 60 that make up
      the position. */
  lemma {:induction false} FormatVideoTimeRoundTrip(totalSeconds: nat)
    ensures match ParseTime(FormatVideoTime(totalSeconds))
      case Some((m, s)) => s < 60 && m * 60 + s == totalSeconds
      case None => false
    ensures totalSeconds < 6000 ==> |FormatVideoTime(totalSeconds)| == 5
  {
    ParseClockText(totalSeconds / 60, totalSeconds % 60);
  }

  /** The progress bar position in percent: video time over duration, a zero
      duration counting as one, clamped to 0..100. */
  function Progress(t: real, duration: real): (p: real)
    ensures 0.0 <= p <= 100.0
    ensures duration > 0.0 && t >= duration ==> p == 100.0
    ensures t <= 0.0 && duration >= 0.0 ==> p == 0.0
    ensures duration > 0.0 && 0.0 <= t <= duration ==> p * duration == t * 100.0
  {
    var d := if duration == 0.0 then 1.0 else duration;
    var raw := (t / d) * 100.0;
    assert duration > 0.0 && 0.0 <= t <= duration ==> raw <= 100.0 && raw * duration == t * 100.0 by {
      if duration > 0.0 && 0.0 <= t <= duration {
        PercentWithin(t, duration);
      }
    }
    var low := if raw > 0.0 then raw else 0.0;
    if low < 100.0 then low else 100.0
  }

  /** A position within the duration is at most 100 percent of it. */
  lemma {:induction false} PercentWithin(t: real, duration: real)
    requires duration > 0.0 && 0.0 <= t <= duration
    ensures (t / duration) * 100.0 <= 100.0
    ensures (t / duration) * 100.0 * duration == t * 100.0
  {
    assert (t / duration) * duration == t;
    assert t / duration <= 1.0;
  }

  /** The bar never moves back while the video plays forward. */
  lemma {:induction false} ProgressMonotone(t1: real, t2: real, duration: real)
    requires duration > 0.0 && t1 <= t2
    ensures Progress(t1, duration) <= Progress(t2, duration)
  {
    assert t1 / duration <= t2 / duration;
  }

  /** A video is loaded: `videoUrl` is present and not empty. */
  predicate HasVideo(config: VideoConfig) {
    config.videoUrl.Some? && config.videoUrl.value != ""
  }

  /** Initial duration: five minutes of timer ticks without a video, and
      unknown (zero, until the video's metadata arrives) with one. */
  function InitialDuration(config: VideoConfig): (d: nat)
    ensures !HasVideo(config) <==> d == 300
    ensures HasVideo(config) <==> d == 0
  {
    if HasVideo(config) then 0 else 5 * 60
  }

  datatype Tick = Tick(time: nat, stopped: bool)

  /** One tick of the one-second interval used without a video: the tick that
      finds the end reached calls `onStop` and keeps the time. */
  function TimerTick(t: nat, duration: nat): (r: Tick)
    ensures r.stopped <==> t >= duration
    ensures r.stopped ==> r.time == t
    ensures !r.stopped ==> r.time == t + 1 && r.time <= duration
  {
    if t >= duration then Tick(t, true) else Tick(t + 1, false)
  }

  /** `n` ticks from time zero, stopping at the first tick that calls `onStop`. */
  function RunTimer(n: nat, duration: nat): Tick {
    if n == 0 then Tick(0, false)
    else
      var prev := RunTimer(n - 1, duration);
      if prev.stopped then prev else TimerTick(prev.time, duration)
  }

  /** The timer counts one second per tick up to the duration, never beyond,
      and the tick after the last second is the one that stops the session. */
  lemma {:induction false} RunTimerCounts(n: nat, duration: nat)
    ensures RunTimer(n, duration).time == if n <= duration then n else duration
    ensures RunTimer(n, duration).stopped <==> n > duration
  {
    if n > 0 {
      RunTimerCounts(n - 1, duration);
    }
  }

  /** What the clock effect writes back into the configuration. */
  datatype ConfigPatch = ConfigPatch(startTime: string, date: string, durationText: string)

  /** The feedback effect: while playing, the current simulated time, date and
      elapsed duration are sent back when any of them differs from the
      configuration; the anchor `start` is fixed for the session. */
  function ClockUpdate(config: VideoConfig, start: Option<int>, t: nat, playing: bool): (r: Option<ConfigPatch>)
    ensures !playing ==> r.None?
    ensures r.Some? ==> r.value.durationText == DurationText(t * config.speed)
    ensures r.Some? ==> r.value.startTime == TimeText(start, t, config.speed)
    ensures r.Some? ==> r.value.date == DateText(start, t, config.speed)
    ensures playing ==>
              (r.Some? <==> config.startTime != TimeText(start, t, config.speed)
                            || config.date != DateText(start, t, config.speed)
                            || config.durationText != Some(DurationText(t * config.speed)))
  {
    if !playing then None
    else
      var patch := ConfigPatch(TimeText(start, t, config.speed), DateText(start, t, config.speed),
                               DurationText(t * config.speed));
      if config.startTime != patch.startTime || config.date != patch.date
         || config.durationText != Some(patch.durationText)
      then Some(patch)
      else None
  }

  function ApplyPatch(config: VideoConfig, p: ConfigPatch): VideoConfig {
    config.(startTime := p.startTime, date := p.date, durationText := Some(p.durationText))
  }

  /** The feedback loop settles: once the update is applied, the same second
      produces no further update. */
  lemma {:induction false} ClockUpdateSettles(config: VideoConfig, start: Option<int>, t: nat, playing: bool)
    requires ClockUpdate(config, start, t, playing).Some?
    ensures ClockUpdate(ApplyPatch(config, ClockUpdate(config, start, t, playing).value), start, t, playing).None?
  {
  }
}

=== FILE: dashboard.dfy ===
/**
  The dashboard's camera cards: the settings menu that holds the delete
  button, and the date line under each card.
 */
module Dashboard {

  import opened Types
  import opened Text
  import opened AppState

  /** `toggleSettings`: the open menu closes when its own button is pressed
      again; any other button opens its own menu. */
  function Toggle(open: Option<string>, id: string): (r: Option<string>)
    ensures r.None? <==> open == Some(id)
    ensures r.Some? ==> r.value == id
  {
    if open == Some(id) then None else Some(id)
  }

  /** Pressing the same button twice restores the menu state exactly when no
      menu or that very menu was open. */
  lemma {:induction false} ToggleTwice(open: Option<string>, id: string)
    ensures Toggle(Toggle(open, id), id) == open <==> open.None? || open == Some(id)
  {
  }

  /** The placeholder camera carries no settings button. */
  predicate MenuOffered(camera: Camera) {
    camera.id != FirstCamera.id
  }

  /** The delete button is on screen for a card whose menu is open. */
  predicate DeleteOffered(camera: Camera, open: Option<string>) {
    MenuOffered(camera) && open == Some(camera.id)
  }

  /** Whatever menu is open, deleting through a card's button keeps the
      placeholder camera in the list. */
  lemma {:induction false} FirstCameraSurvivesDelete(a: App, camera: Camera, open: Option<string>)
    requires DeleteOffered(camera, open)
    requires FirstCamera in a.cameras
    ensures FirstCamera in DeleteCamera(a, camera.id).cameras
  {
  }

  /** The date line of a card: one text, or a start and an end line. */
  datatype DateLabel = Plain(text: string) | StartEnd(start: string, end: string)

  const FallbackDate := "19/09/2021"

  /** `s.replace(/-/g, '/')`. */
  function Slashed(s: string): (r: string)
    ensures |r| == |s| && '-' !in r
  {
    ReplaceChar(s, '-', '/')
  }

  /** A present, non-empty text (the JavaScript truthiness of an optional
      string). */
  predicate Truthy(s: Option<string>) {
    s.Some? && s.value != ""
  }

  /** The date line: nothing for a camera that is not online, a fixed date
      when the session carries no date, and otherwise the start date (the
      original date, else the current one) and the current date with slashes,
      on two lines when they differ. */
  function Label(camera: Camera): (r: DateLabel)
    ensures camera.status != Online ==> r == Plain("")
    ensures camera.status == Online && (camera.config.None? || camera.config.value.date == "") ==>
              r == Plain(FallbackDate)
    ensures camera.status == Online && camera.config.Some? && camera.config.value.date != ""
            && !Truthy(camera.config.value.originalDate) ==>
              r == Plain(Slashed(camera.config.value.date))
    ensures camera.status == Online && camera.config.Some? && camera.config.value.date != ""
            && Truthy(camera.config.value.originalDate) ==>
              && (r.StartEnd? <==> Slashed(camera.config.value.originalDate.value) != Slashed(camera.config.value.date))
              && (r.Plain? ==> r.text == Slashed(camera.config.value.date))
    ensures r.StartEnd? ==>
              && camera.config.Some? && Truthy(camera.config.value.originalDate)
              && r.start == Slashed(camera.config.value.originalDate.value)
              && r.end == Slashed(camera.config.value.date)
              && r.start != r.end
  {
    if camera.status != Online then Plain("")
    else if camera.config.None? || camera.config.value.date == "" then Plain(FallbackDate)
    else
      var config := camera.config.value;
      var original := if Truthy(config.originalDate) then config.originalDate.value else config.date;
      var start := Slashed(original);
      var end := Slashed(config.date);
      if start != end then StartEnd(start, end) else Plain(start)
  }

  /** Putting the dashes back restores a text that had no slash, and only
      such a text. */
  lemma {:induction false} SlashedRoundTrip(s: string)
    ensures ReplaceChar(Slashed(s), '/', '-') == s <==> '/' !in s
  {
    var back := ReplaceChar(Slashed(s), '/', '-');
    if '/' in s {
      var i :| 0 <= i < |s| && s[i] == '/';
      assert back[i] == '-';
    } else {
      assert forall i :: 0 <= i < |s| ==> back[i] == s[i];
    }
  }

  /** Texts without slashes (such as the `YYYY-MM-DD` dates) keep their
      difference when slashed. */
  lemma {:induction false} SlashedInjective(a: string, b: string)
    requires '/' !in a && '/' !in b
    requires Slashed(a) == Slashed(b)
    ensures a == b
  {
    SlashedRoundTrip(a);
    SlashedRoundTrip(b);
  }

  /** For dates without slashes, an online card shows two lines exactly when
      the original date is present and differs from the current one. */
  lemma {:induction false} TwoLinesIffDatesDiffer(camera: Camera)
    requires camera.status == Online && camera.config.Some? && camera.config.value.date != ""
    requires '/' !in camera.config.value.date
    requires Truthy(camera.config.value.originalDate) ==> '/' !in camera.config.value.originalDate.value
    ensures Label(camera).StartEnd? <==>
              Truthy(camera.config.value.originalDate)
              && camera.config.value.originalDate.value != camera.config.value.date
  {
    var config := camera.config.value;
    if Truthy(config.originalDate) && Slashed(config.originalDate.value) == Slashed(config.date) {
      SlashedInjective(config.originalDate.value, config.date);
    }
  }
}

=== FILE: group.dfy ===
/**
  The care group screen: the member list with its role changes and removals,
  the pending join requests, the owner's invite code and the join form.
 */
module Group {

  import opened Types
  import opened Text

  datatype GroupState = GroupState(members: seq<GroupMember>, pending: seq<GroupMember>)

  const Anna := GroupMember("1", "Anna", Owner, "Daughter(Anna)", "Anna", None, Some(true))
  const Grandson := GroupMember("2", "Grandson", Viewer, "Grandson", "Grandson", None, None)
  const Somchai := GroupMember("3", "Dr. Somchai", Admin, "Doctor Somchai", "Somchai", None, None)
  const AuntieJu := GroupMember("p1", "Auntie Ju", Viewer, "Auntie Ju", "Ju", None, None)

  const InitialGroup := GroupState([Anna, Grandson, Somchai], [AuntieJu])

  /** `handleRoleChange`: every member with the id takes the new role. */
  function RoleChange(members: seq<GroupMember>, id: string, role: UserRole): (r: seq<GroupMember>)
    ensures |r| == |members|
    ensures forall i :: 0 <= i < |members| ==>
              r[i] == (if members[i].id == id then members[i].(role := role) else members[i])
  {
    if members == [] then []
    else
      [if members[0].id == id then members[0].(role := role) else members[0]]
      + RoleChange(members[1..], id, role)
  }

  /** The members without those carrying the id, in their order. */
  function WithoutMember(members: seq<GroupMember>, id: string): (r: seq<GroupMember>)
    ensures |r| <= |members|
    ensures forall m :: m in r <==> m in members && m.id != id
  {
    if members == [] then []
    else (if members[0].id != id then [members[0]] else []) + WithoutMember(members[1..], id)
  }

  /** Removing from a concatenation removes from each part, so the remaining
      members keep their order. */
  lemma {:induction false} WithoutMemberAppend(x: seq<GroupMember>, y: seq<GroupMember>, id: string)
    ensures WithoutMember(x + y, id) == WithoutMember(x, id) + WithoutMember(y, id)
  {
    if x == [] {
      assert x + y == y;
    } else {
      assert (x + y)[0] == x[0];
      assert (x + y)[1..] == x[1..] + y;
      WithoutMemberAppend(x[1..], y, id);
    }
  }

  /** Removing an id nobody carries changes nothing. */
  lemma {:induction false} WithoutAbsentMember(members: seq<GroupMember>, id: string)
    requires forall m :: m in members ==> m.id != id
    ensures WithoutMember(members, id) == members
  {
    if members != [] {
      assert members == [members[0]] + members[1..];
      WithoutAbsentMember(members[1..], id);
    }
  }

  function DeleteMember(g: GroupState, id: string): (r: GroupState)
    ensures r.pending == g.pending
    ensures forall m :: m in r.members <==> m in g.members && m.id != id
  {
    g.(members := WithoutMember(g.members, id))
  }

  /** `handleApprove`: the request joins at the end of the list and every
      pending request with its id goes. */
  function Approve(g: GroupState, request: GroupMember): (r: GroupState)
    ensures |r.members| == |g.members| + 1
    ensures r.members[..|g.members|] == g.members && r.members[|g.members|] == request
    ensures forall m :: m in r.pending <==> m in g.pending && m.id != request.id
  {
    g.(members := g.members + [request], pending := WithoutMember(g.pending, request.id))
  }

  function Decline(g: GroupState, id: string): (r: GroupState)
    ensures r.members == g.members
    ensures forall m :: m in r.pending <==> m in g.pending && m.id != id
  {
    g.(pending := WithoutMember(g.pending, id))
  }

  /** Removing an id from a list with one entry singled out: the entries before
      and after it keep their order and copies around it, and it stays unless
      it carries the id. */
  lemma {:induction false} WithoutMemberAround(x: seq<GroupMember>, m: GroupMember, y: seq<GroupMember>, id: string)
    ensures WithoutMember(x + [m] + y, id)
         == WithoutMember(x, id) + (if m.id != id then [m] else []) + WithoutMember(y, id)
  {
    var kept := if m.id != id then [m] else [];
    assert WithoutMember([m], id) == kept by {
      assert [m][1..] == [];
      assert WithoutMember([m], id) == kept + WithoutMember([], id);
    }
    WithoutMemberAppend(x, [m], id);
    WithoutMemberAppend(x + [m], y, id);
  }

  /** Removing a member keeps the others in their order and with their copies. */
  lemma {:induction false} DeleteMemberKeepsOrder(g: GroupState, x: seq<GroupMember>, m: GroupMember, y: seq<GroupMember>, id: string)
    requires g.members == x + [m] + y
    ensures DeleteMember(g, id).members
         == WithoutMember(x, id) + (if m.id != id then [m] else []) + WithoutMember(y, id)
  {
    WithoutMemberAround(x, m, y, id);
  }

  /** Approving keeps the other pending requests in their order and with their
      copies. */
  lemma {:induction false} ApproveKeepsPendingOrder(g: GroupState, request: GroupMember, x: seq<GroupMember>, p: GroupMember, y: seq<GroupMember>)
    requires g.pending == x + [p] + y
    ensures Approve(g, request).pending
         == WithoutMember(x, request.id) + (if p.id != request.id then [p] else []) + WithoutMember(y, request.id)
  {
    WithoutMemberAround(x, p, y, request.id);
  }

  /** Declining keeps the other pending requests in their order and with their
      copies. */
  lemma {:induction false} DeclineKeepsOrder(g: GroupState, x: seq<GroupMember>, p: GroupMember, y: seq<GroupMember>, id: string)
    requires g.pending == x + [p] + y
    ensures Decline(g, id).pending
         == WithoutMember(x, id) + (if p.id != id then [p] else []) + WithoutMember(y, id)
  {
    WithoutMemberAround(x, p, y, id);
  }

  /** Declining the same request twice finds nothing more to remove. */
  lemma {:induction false} DeclineIdempotent(g: GroupState, id: string)
    ensures Decline(Decline(g, id), id) == Decline(g, id)
  {
    WithoutAbsentMember(Decline(g, id).pending, id);
  }

  /** Changing the same member's role twice keeps the second role. */
  lemma {:induction false} RoleChangeLastWins(members: seq<GroupMember>, id: string, a: UserRole, b: UserRole)
    ensures RoleChange(RoleChange(members, id, a), id, b) == RoleChange(members, id, b)
  {
    var x := RoleChange(RoleChange(members, id, a), id, b);
    var y := RoleChange(members, id, b);
    assert forall i :: 0 <= i < |x| ==> x[i] == y[i];
  }

  /** The number of owners in a list. */
  function Owners(members: seq<GroupMember>): nat {
    if members == [] then 0
    else (if members[0].role == Owner then 1 else 0) + Owners(members[1..])
  }

  /** A row offers the role selector and the delete button only when it is not
      an owner's row, and the selector offers only Admin and Viewer. */
  predicate OfferedRoleChange(member: GroupMember, role: UserRole) {
    member.role != Owner && (role == Admin || role == Viewer)
  }

  predicate OfferedDelete(member: GroupMember) {
    member.role != Owner
  }

  /** No owner carries the id. */
  predicate NoOwnerWithId(members: seq<GroupMember>, id: string) {
    forall k :: 0 <= k < |members| && members[k].id == id ==> members[k].role != Owner
  }

  /** A role change towards a non-owner role on ids no owner carries keeps the
      number of owners. */
  lemma {:induction false} RoleChangeKeepsOwners(members: seq<GroupMember>, id: string, role: UserRole)
    requires role != Owner && NoOwnerWithId(members, id)
    ensures Owners(RoleChange(members, id, role)) == Owners(members)
  {
    if members != [] {
      var r := RoleChange(members, id, role);
      assert r[1..] == RoleChange(members[1..], id, role);
      assert NoOwnerWithId(members[1..], id) by {
        forall k | 0 <= k < |members[1..]| && members[1..][k].id == id
          ensures members[1..][k].role != Owner
        {
          assert members[1..][k] == members[k + 1];
        }
      }
      RoleChangeKeepsOwners(members[1..], id, role);
    }
  }

  /** Removing members no owner shares the id with keeps the number of owners. */
  lemma {:induction false} DeleteKeepsOwners(members: seq<GroupMember>, id: string)
    requires NoOwnerWithId(members, id)
    ensures Owners(WithoutMember(members, id)) == Owners(members)
  {
    if members != [] {
      assert NoOwnerWithId(members[1..], id) by {
        forall k | 0 <= k < |members[1..]| && members[1..][k].id == id
          ensures members[1..][k].role != Owner
        {
          assert members[1..][k] == members[k + 1];
        }
      }
      DeleteKeepsOwners(members[1..], id);
      if members[0].id == id {
        assert WithoutMember(members, id) == WithoutMember(members[1..], id);
      } else {
        var rest := WithoutMember(members[1..], id);
        assert WithoutMember(members, id) == [members[0]] + rest;
        assert ([members[0]] + rest)[1..] == rest;
      }
    }
  }

  /** No two members share an id. */
  predicate UniqueIds(members: seq<GroupMember>) {
    forall i, j :: 0 <= i < j < |members| ==> members[i].id != members[j].id
  }

  /** With unique ids, the changes the screen offers never change the number
      of owners. */
  lemma {:induction false} OfferedActionsKeepOwners(members: seq<GroupMember>, k: nat, role: UserRole)
    requires UniqueIds(members) && k < |members|
    ensures OfferedRoleChange(members[k], role) ==>
              Owners(RoleChange(members, members[k].id, role)) == Owners(members)
    ensures OfferedDelete(members[k]) ==>
              Owners(WithoutMember(members, members[k].id)) == Owners(members)
  {
    if members[k].role != Owner {
      assert NoOwnerWithId(members, members[k].id);
      if role != Owner {
        RoleChangeKeepsOwners(members, members[k].id, role);
      }
      DeleteKeepsOwners(members, members[k].id);
    }
  }

  /** Appending a member adds one owner exactly when it is an owner. */
  lemma {:induction false} OwnersAppend(members: seq<GroupMember>, m: GroupMember)
    ensures Owners(members + [m]) == Owners(members) + (if m.role == Owner then 1 else 0)
  {
    if members != [] {
      assert (members + [m])[1..] == members[1..] + [m];
      OwnersAppend(members[1..], m);
    }
  }

  /** Approving a request whose id no member carries keeps the ids unique, and
      a non-owner request keeps the number of owners. */
  lemma {:induction false} ApproveKeepsGroup(g: GroupState, request: GroupMember)
    requires UniqueIds(g.members)
    requires forall k :: 0 <= k < |g.members| ==> g.members[k].id != request.id
    ensures UniqueIds(Approve(g, request).members)
    ensures request.role != Owner ==> Owners(Approve(g, request).members) == Owners(g.members)
  {
    OwnersAppend(g.members, request);
  }

  /** The starting group has distinct ids and a single owner. */
  lemma {:induction false} InitialGroupOneOwner()
    ensures UniqueIds(InitialGroup.members)
    ensures Owners(InitialGroup.members) == 1
  {
    var m := InitialGroup.members;
    assert m[1..] == [Grandson, Somchai];
    assert m[1..][1..] == [Somchai];
    assert m[1..][1..][1..] == [];
    assert Owners([Somchai]) == 0;
    assert Owners([Grandson, Somchai]) == 0;
    assert m[0].id == "1" && m[1].id == "2" && m[2].id == "3";
    assert "1" != "2" && "1" != "3" && "2" != "3" by {
      assert "1"[0] != "2"[0] && "1"[0] != "3"[0] && "2"[0] != "3"[0];
    }
  }

  /** The invite code prefix. */
  const InvitePrefix := "LG-"

  /** The invite code initialiser: a stored non-empty code is kept, otherwise
      `'LG-' + Math.floor(1000 + draw * 9000)` with `draw` the value of
      `Math.random()`. */
  function InviteCode(stored: Option<string>, draw: real): (code: string)
    requires 0.0 <= draw < 1.0
    ensures stored.Some? && stored.value != "" ==> code == stored.value
    ensures stored.None? || stored.value == "" ==>
              && |code| == |InvitePrefix| + 4
              && code[..|InvitePrefix|] == InvitePrefix
              && (exists n: nat :: 1000 <= n <= 9999 && code == InvitePrefix + NatToString(n))
  {
    if stored.Some? && stored.value != "" then stored.value
    else
      var n := (1000.0 + draw * 9000.0).Floor;
      assert 1000 <= n <= 9999;
      NatLength4(n);
      InvitePrefix + NatToString(n)
  }

  /** Four-digit numbers have four digits. */
  lemma {:induction false} NatLength4(n: nat)
    requires 1000 <= n <= 9999
    ensures |NatToString(n)| == 4
  {
    var c := n / 10;
    var b := c / 10;
    var a := b / 10;
    assert 100 <= c <= 999 && 10 <= b <= 99 && 1 <= a <= 9;
    assert |NatToString(b)| == |NatToString(a)| + 1 == 2;
    assert |NatToString(c)| == |NatToString(b)| + 1;
    assert |NatToString(n)| == |NatToString(c)| + 1;
  }

  /** The code is stored once made, and the next visit reads it back. */
  lemma {:induction false} InviteCodePersists(stored: Option<string>, draw: real, later: real)
    requires 0.0 <= draw < 1.0 && 0.0 <= later < 1.0
    ensures InviteCode(Some(InviteCode(stored, draw)), later) == InviteCode(stored, draw)
  {
  }

  /** The join form after pressing Join, and the request it sent, if any. */
  datatype JoinOutcome = JoinOutcome(code: string, sent: Option<string>)

  /** The Join button is disabled while the code is empty. */
  predicate JoinEnabled(code: string) {
    code != ""
  }

  /** Pressing Join: a disabled button does nothing; otherwise the request for
      the typed code goes out and the field is cleared. */
  function PressJoin(code: string): (r: JoinOutcome)
    ensures r.sent.Some? <==> JoinEnabled(code)
    ensures r.sent.Some? ==> r.sent.value == code && r.code == ""
    ensures r.sent.None? ==> r.code == code
  {
    if JoinEnabled(code) then JoinOutcome("", Some(code)) else JoinOutcome(code, None)
  }

  /** A second press right after a first one sends nothing. */
  lemma {:induction false} JoinSendsOnce(code: string)
    ensures PressJoin(PressJoin(code).code).sent.None?
  {
  }
}

=== FILE: pose.dfy ===
/**
  The fall heuristic of the pose detection service: a body is taken as fallen
  when the nose is about as low in the image as the ankles. Coordinates are
  normalised image coordinates, `y` growing downwards; the model works over
  exact reals.
 */
module PoseDetection {

  import opened Types

  datatype Landmark = Landmark(x: real, y: real, z: real, visibility: real)

  /** Landmarks in a full pose, and the indices the heuristic reads. */
  const LandmarkCount := 33
  const Nose := 0
  const LeftAnkle := 27
  const RightAnkle := 28

  /** Largest nose-to-ankle height difference still read as fallen (exclusive). */
  const FallThreshold: real := 0.35

  function Abs(r: real): real {
    if r < 0.0 then -r else r
  }

  /** `isFalling`: false without a full pose; otherwise whether the nose lies
      within the threshold of the ankles' mean height. */
  function IsFalling(landmarks: Option<seq<Landmark>>): (r: bool)
    ensures landmarks.None? || |landmarks.value| < LandmarkCount ==> !r
    ensures landmarks.Some? && |landmarks.value| >= LandmarkCount ==>
              var p := landmarks.value;
              (r <==> -0.7 < 2.0 * p[Nose].y - p[LeftAnkle].y - p[RightAnkle].y < 0.7)
  {
    match landmarks
    case None => false
    case Some(p) =>
      if |p| < LandmarkCount then false
      else
        var ankleY := (p[LeftAnkle].y + p[RightAnkle].y) / 2.0;
        Abs(p[Nose].y - ankleY) < FallThreshold
  }

  /** Two full poses that agree on the heights of the nose and both ankles get
      the same verdict. */
  lemma {:induction false} OnlyKeyHeightsMatter(a: seq<Landmark>, b: seq<Landmark>)
    requires |a| >= LandmarkCount && |b| >= LandmarkCount
    requires a[Nose].y == b[Nose].y
    requires a[LeftAnkle].y == b[LeftAnkle].y && a[RightAnkle].y == b[RightAnkle].y
    ensures IsFalling(Some(a)) == IsFalling(Some(b))
  {
  }

  /** A pose with the ankles exchanged. */
  function SwapAnkles(p: seq<Landmark>): (q: seq<Landmark>)
    requires |p| >= LandmarkCount
    ensures |q| == |p|
    ensures q[LeftAnkle] == p[RightAnkle] && q[RightAnkle] == p[LeftAnkle]
    ensures forall i :: 0 <= i < |p| && i != LeftAnkle && i != RightAnkle ==> q[i] == p[i]
  {
    p[LeftAnkle := p[RightAnkle]][RightAnkle := p[LeftAnkle]]
  }

  /** Left and right do not matter. */
  lemma {:induction false} AnkleSwapInvariant(p: seq<Landmark>)
    requires |p| >= LandmarkCount
    ensures IsFalling(Some(SwapAnkles(p))) == IsFalling(Some(p))
  {
  }

  /** A standing figure, nose well above the ankles, is not fallen; a figure
      lying level is. */
  lemma {:induction false} StandingAndLyingExamples(p: seq<Landmark>)
    requires |p| >= LandmarkCount
    ensures p[Nose].y == 0.1 && p[LeftAnkle].y == 0.9 && p[RightAnkle].y == 0.9 ==> !IsFalling(Some(p))
    ensures p[Nose].y == 0.8 && p[LeftAnkle].y == 0.85 && p[RightAnkle].y == 0.8 ==> IsFalling(Some(p))
  {
  }
}

=== FILE: posture.dfy ===
/**
  The per-frame posture pipeline of a running session, as the component
  implements it: the posture decision from the three classifier signals with
  the fall relabelling, the jitter filter, the rolling buffer of at most five
  entries, the stability check, and the event raised when the stable posture
  differs from the displayed one.

  The classifier signals `isLaying`, `isStanding` and `isWalking` are inputs of
  each frame. A frame without a detected person changes nothing.
 */
module PostureMachine {

  import opened Types
  import opened Clock

  /** Largest number of buffered postures. */
  const Capacity := 5
  /** Number of buffered postures the filter and the stability check need. */
  const Window := 3

  datatype Frame = NoPerson | Person(laying: bool, standing: bool, walking: bool)

  /** `postureHistory` and the displayed (`stickmanPosture`) posture. */
  datatype Session = Session(history: seq<Posture>, displayed: Posture)

  /** A new session: empty buffer, standing figure. */
  const Initial := Session([], Standing)

  predicate Upright(p: Posture) {
    p == Standing || p == Walking
  }

  function Last(h: seq<Posture>): Posture
    requires |h| > 0
  {
    h[|h| - 1]
  }

  /** The posture decision: laying before standing before walking, sitting
      otherwise; laying right after a buffered upright entry is a fall. */
  function Detect(laying: bool, standing: bool, walking: bool, history: seq<Posture>): (p: Posture)
    ensures p == Falling <==> laying && |history| > 0 && Upright(Last(history))
    ensures p == Laying <==> laying && (|history| == 0 || !Upright(Last(history)))
    ensures p == Standing <==> !laying && standing
    ensures p == Walking <==> !laying && !standing && walking
    ensures p == Sitting <==> !laying && !standing && !walking
  {
    if laying then
      if |history| > 0 && Upright(Last(history)) then Falling else Laying
    else if standing then Standing
    else if walking then Walking
    else Sitting
  }

  /** The jitter filter: with three or more buffered entries, a non-fall
      detection is pushed only if the last three entries all agree with it, and
      the last entry is pushed again otherwise. */
  function Filter(detected: Posture, history: seq<Posture>): (pushed: Posture)
    ensures |history| >= Window && detected != Falling ==> pushed == Last(history)
    ensures |history| < Window || detected == Falling ==> pushed == detected
  {
    if |history| >= Window && detected != Falling then
      var last3 := history[|history| - Window..];
      if forall i :: 0 <= i < Window ==> last3[i] == detected then detected
      else last3[Window - 1]
    else detected
  }

  /** Appending to the rolling buffer: one entry is shifted out once it holds
      more than five. */
  function Push(history: seq<Posture>, p: Posture): (r: seq<Posture>)
    ensures |r| == if |history| < Capacity then |history| + 1 else |history|
    ensures Last(r) == p
    ensures r[..|r| - 1] == history[|history| + 1 - |r|..]
  {
    var h := history + [p];
    if |h| > Capacity then h[1..] else h
  }

  /** The stability check: at least three entries, every one of them equal
      to the detected posture. */
  predicate Stable(history: seq<Posture>, detected: Posture) {
    |history| >= Window && forall i :: 0 <= i < |history| ==> history[i] == detected
  }

  /** The posture decided for a frame with a person on the session's buffer. */
  function Detected(s: Session, f: Frame): Posture
    requires f.Person?
  {
    Detect(f.laying, f.standing, f.walking, s.history)
  }

  datatype StepResult = StepResult(session: Session, emitted: Option<Posture>)

  /** One animation frame. `emitted` is the posture of the event raised, if any. */
  function Step(s: Session, f: Frame): (r: StepResult)
    ensures |s.history| <= Capacity ==> |r.session.history| <= Capacity
    ensures f.NoPerson? ==> r.session == s && r.emitted.None?
    ensures f.Person? ==> |r.session.history| > 0
    ensures r.emitted.None? ==> r.session.displayed == s.displayed
    ensures r.emitted.Some? ==>
              && r.emitted.value != s.displayed
              && r.session.displayed == r.emitted.value
              && Stable(r.session.history, r.emitted.value)
    ensures r.emitted != Some(Falling)
    ensures r.session.displayed == s.displayed || r.session.displayed != Falling
    ensures f.Person? ==> r.session.history == Push(s.history, Filter(Detected(s, f), s.history))
    ensures r.emitted.Some? ==> f.Person? && r.emitted.value == Detected(s, f)
    ensures r.emitted.Some? <==>
              && f.Person?
              && Detected(s, f) != Falling
              && Detected(s, f) != s.displayed
              && Stable(r.session.history, Detected(s, f))
  {
    match f
    case NoPerson => StepResult(s, None)
    case Person(laying, standing, walking) =>
      var d := Detected(s, f);
      var h := Push(s.history, Filter(d, s.history));
      if d == Falling then
        assert h[|h| - 2] == Last(s.history);
        StepResult(s.(history := h), None)
      else if Stable(h, d) then
        StepResult(Session(h, d), if d != s.displayed then Some(d) else None)
      else
        StepResult(s.(history := h), None)
  }

  /** Once the buffer holds three entries, its last entry can only change to
      a fall. */
  lemma {:induction false} LastEntryFrozen(s: Session, f: Frame)
    requires |s.history| >= Window
    ensures var h := Step(s, f).session.history;
      Last(h) == Last(s.history) || Last(h) == Falling
  {
  }

  /** A fall at the end of the buffer stays there: no later detection is a
      fall, so the filter keeps pushing it. */
  lemma {:induction false} FallingStaysLast(s: Session, f: Frame)
    requires |s.history| >= Window && Last(s.history) == Falling
    ensures Last(Step(s, f).session.history) == Falling
  {
  }

  /** The session after a run of frames and the events raised, oldest first. */
  datatype Trace = Trace(session: Session, events: seq<Posture>)

  /** Applies the frames in order. */
  function Run(s: Session, frames: seq<Frame>): (r: Trace)
    ensures |r.events| <= |frames|
    ensures Falling !in r.events
  {
    if |frames| == 0 then Trace(s, [])
    else
      var prev := Run(s, frames[..|frames| - 1]);
      var r := Step(prev.session, frames[|frames| - 1]);
      Trace(r.session, prev.events + (if r.emitted.Some? then [r.emitted.value] else []))
  }

  /** Every entry is `x` or a fall. */
  predicate OnlyOrFalling(h: seq<Posture>, x: Posture) {
    forall i :: 0 <= i < |h| ==> h[i] == x || h[i] == Falling
  }

  /** No entry follows a fall except another fall. */
  predicate FallsAtEnd(h: seq<Posture>) {
    forall i, j :: 0 <= i < j < |h| && h[i] == Falling ==> h[j] == Falling
  }

  /** After an event: the buffer holds the displayed posture, possibly
      followed by falls only. */
  predicate Settled(s: Session) {
    && |s.history| >= Window
    && s.displayed != Falling
    && OnlyOrFalling(s.history, s.displayed)
    && FallsAtEnd(s.history)
  }

  /** The frame that raises an event leaves the session settled. */
  lemma {:induction false} EventSettles(s: Session, f: Frame)
    requires Step(s, f).emitted.Some?
    ensures Settled(Step(s, f).session)
  {
  }

  /** Pushing `x` after entries `x`, or a fall after anything of the shape,
      keeps the shape. */
  lemma {:induction false} PushKeepsShape(h: seq<Posture>, p: Posture, x: Posture)
    requires |h| > 0 && OnlyOrFalling(h, x) && FallsAtEnd(h)
    requires p == Falling || (p == x && Last(h) == x)
    ensures OnlyOrFalling(Push(h, p), x) && FallsAtEnd(Push(h, p))
  {
    var h' := Push(h, p);
    var k := |h| + 1 - |h'|;
    assert forall i :: 0 <= i < |h'| - 1 ==> h'[i] == h[k + i] by {
      forall i | 0 <= i < |h'| - 1
        ensures h'[i] == h[k + i]
      {
        assert h'[..|h'| - 1][i] == h[k..][i];
      }
    }
    forall i, j | 0 <= i < j < |h'| && h'[i] == Falling
      ensures h'[j] == Falling
    {
      if j == |h'| - 1 {
        assert h[|h| - 1] == Falling;
      }
    }
  }

  /** A settled session stays settled and raises no further event. */
  lemma {:induction false} SettledStep(s: Session, f: Frame)
    requires Settled(s)
    ensures Settled(Step(s, f).session)
    ensures Step(s, f).emitted.None?
  {
    if f.Person? {
      var h := s.history;
      var d := Detect(f.laying, f.standing, f.walking, h);
      PushKeepsShape(h, Filter(d, h), s.displayed);
    }
  }

  /** A session raises at most one posture event, and never a fall event,
      whatever frames it receives. */
  lemma {:induction false} AtMostOneEvent(s: Session, frames: seq<Frame>)
    ensures |Run(s, frames).events| <= 1
    ensures |Run(s, frames).events| == 1 ==> Settled(Run(s, frames).session)
    ensures forall i :: 0 <= i < |Run(s, frames).events| ==> Run(s, frames).events[i] != Falling
  {
    if |frames| > 0 {
      var prefix := frames[..|frames| - 1];
      AtMostOneEvent(s, prefix);
      var mid := Run(s, prefix).session;
      var events := Run(s, prefix).events;
      var f := frames[|frames| - 1];
      if |events| == 1 {
        SettledStep(mid, f);
      } else if Step(mid, f).emitted.Some? {
        EventSettles(mid, f);
      }
    }
  }

  /** From a new session the buffer never exceeds five entries and the
      displayed posture is never a fall. */
  lemma {:induction false} RunInvariant(frames: seq<Frame>)
    ensures |Run(Initial, frames).session.history| <= Capacity
    ensures Run(Initial, frames).session.displayed != Falling
  {
    if |frames| > 0 {
      RunInvariant(frames[..|frames| - 1]);
    }
  }

  /** One more frame extends a run by one step. */
  lemma {:induction false} RunLast(s: Session, frames: seq<Frame>, before: Trace, r: StepResult)
    requires |frames| > 0
    requires Run(s, frames[..|frames| - 1]) == before
    requires Step(before.session, frames[|frames| - 1]) == r
    ensures Run(s, frames).session == r.session
    ensures Run(s, frames).events == before.events + (if r.emitted.Some? then [r.emitted.value] else [])
  {
  }

  const StandFrame := Person(false, true, false)
  const LieFrame := Person(true, false, false)
  const SitFrame := Person(false, false, false)

  /** Up to five standing frames from a new session fill the buffer with
      standing entries and raise no event. */
  lemma {:induction false} StandingFrames(frames: seq<Frame>)
    requires |frames| <= Capacity
    requires forall i :: 0 <= i < |frames| ==> frames[i] == StandFrame
    ensures Run(Initial, frames) == Trace(Session(seq(|frames|, _ => Standing), Standing), [])
  {
    var n := |frames|;
    if n > 0 {
      var h := seq(n - 1, _ => Standing);
      StandingFrames(frames[..n - 1]);
      StandingStep(n - 1);
      RunLast(Initial, frames, Trace(Session(h, Standing), []),
        StepResult(Session(seq(n, _ => Standing), Standing), None));
    }
  }

  /** A standing frame on a standing buffer with room only buffers: the
      figure already stands. */
  lemma {:induction false} StandingStep(n: nat)
    requires n < Capacity
    ensures Step(Session(seq(n, _ => Standing), Standing), StandFrame)
         == StepResult(Session(seq(n + 1, _ => Standing), Standing), None)
  {
    assert Push(seq(n, _ => Standing), Standing) == seq(n + 1, _ => Standing);
  }

  /** Up to two sitting frames from a new session only fill the buffer. */
  lemma {:induction false} SittingFrames(frames: seq<Frame>)
    requires |frames| < Window
    requires forall i :: 0 <= i < |frames| ==> frames[i] == SitFrame
    ensures Run(Initial, frames) == Trace(Session(seq(|frames|, _ => Sitting), Standing), [])
  {
    var n := |frames|;
    if n > 0 {
      var h := seq(n - 1, _ => Sitting);
      SittingFrames(frames[..n - 1]);
      SittingStep(n - 1);
      RunLast(Initial, frames, Trace(Session(h, Standing), []),
        StepResult(Session(seq(n, _ => Sitting), Standing), None));
    }
  }

  /** A sitting frame on fewer than two buffered sitting entries only buffers. */
  lemma {:induction false} SittingStep(n: nat)
    requires n < Window - 1
    ensures Step(Session(seq(n, _ => Sitting), Standing), SitFrame)
         == StepResult(Session(seq(n + 1, _ => Sitting), Standing), None)
  {
    assert Push(seq(n, _ => Sitting), Sitting) == seq(n + 1, _ => Sitting);
  }

  /** Three standing frames leave three standing entries and no event. */
  lemma {:induction false} StandingPrefix(frames: seq<Frame>)
    requires |frames| == 3 && frames[0] == StandFrame && frames[1] == StandFrame && frames[2] == StandFrame
    ensures Run(Initial, frames) == Trace(Session([Standing, Standing, Standing], Standing), [])
  {
    assert seq(3, _ => Standing) == [Standing, Standing, Standing];
    StandingFrames(frames);
  }

  /** A laying frame after three standing ones is detected as a fall, but the
      buffer still holds the standing entries, so nothing is stable. */
  lemma {:induction false} FallAfterThreeStanding()
    ensures Step(Session([Standing, Standing, Standing], Standing), LieFrame)
         == StepResult(Session([Standing, Standing, Standing, Falling], Standing), None)
  {
    assert Push([Standing, Standing, Standing], Falling) == [Standing, Standing, Standing, Falling];
  }

  /** Three standing frames and then a laying frame raise no event at all: the
      fall is detected on the fourth frame but the buffer still holds the
      standing entries when the stability check runs, and the displayed
      figure stays standing. */
  lemma {:induction false} StandThenFallRaisesNothing(frames: seq<Frame>)
    requires |frames| == 4
    requires frames[0] == StandFrame && frames[1] == StandFrame && frames[2] == StandFrame
    requires frames[3] == LieFrame
    ensures Run(Initial, frames).events == []
    ensures Run(Initial, frames).session == Session([Standing, Standing, Standing, Falling], Standing)
  {
    StandingPrefix(frames[..3]);
    FallAfterThreeStanding();
    RunLast(Initial, frames, Trace(Session([Standing, Standing, Standing], Standing), []),
      StepResult(Session([Standing, Standing, Standing, Falling], Standing), None));
  }

  /** Two sitting frames leave two sitting entries and a standing figure. */
  lemma {:induction false} SittingPrefix(frames: seq<Frame>)
    requires |frames| == 2 && frames[0] == SitFrame && frames[1] == SitFrame
    ensures Run(Initial, frames) == Trace(Session([Sitting, Sitting], Standing), [])
  {
    assert seq(2, _ => Sitting) == [Sitting, Sitting];
    SittingFrames(frames);
  }

  /** The third sitting frame makes the buffer stable on sitting. */
  lemma {:induction false} ThirdSittingFrame()
    ensures Step(Session([Sitting, Sitting], Standing), SitFrame)
         == StepResult(Session([Sitting, Sitting, Sitting], Sitting), Some(Sitting))
  {
    assert Push([Sitting, Sitting], Sitting) == [Sitting, Sitting, Sitting];
  }

  /** Three sitting frames raise one sitting event, on the third frame. */
  lemma {:induction false} ThreeSittingFramesRaiseSitting(frames: seq<Frame>)
    requires |frames| == 3
    requires frames[0] == SitFrame && frames[1] == SitFrame && frames[2] == SitFrame
    ensures Run(Initial, frames).events == [Sitting]
    ensures Run(Initial, frames).session == Session([Sitting, Sitting, Sitting], Sitting)
  {
    SittingPrefix(frames[..2]);
    ThirdSittingFrame();
    RunLast(Initial, frames, Trace(Session([Sitting, Sitting], Standing), []),
      StepResult(Session([Sitting, Sitting, Sitting], Sitting), Some(Sitting)));
  }

  /** The fixed description of each posture's event. */
  function Description(p: Posture): string {
    match p
    case Falling => "Sudden postural collapse detected (Critical)"
    case Standing => "Subject is in a stable upright position"
    case Walking => "Subject is moving in the supervised area"
    case Sitting => "Subject is in a stable sitting posture"
    case Laying => "Subject is resting in a horizontal position"
  }

  const WalkFrame := Person(false, false, true)

  /** A walking frame on a full buffer of sitting entries under a standing
      figure: the jitter filter pushes sitting again, and since the buffer is
      not stable on the walking detection, nothing is raised. */
  lemma {:induction false} WalkingOnSittingBufferRaisesNothing()
    ensures Step(Session([Standing, Sitting, Sitting, Sitting, Sitting], Standing), WalkFrame)
         == StepResult(Session([Sitting, Sitting, Sitting, Sitting, Sitting], Standing), None)
  {
    var h := [Standing, Sitting, Sitting, Sitting, Sitting];
    assert Filter(Walking, h) == Sitting;
    assert Push(h, Sitting) == [Sitting, Sitting, Sitting, Sitting, Sitting];
    assert !Stable([Sitting, Sitting, Sitting, Sitting, Sitting], Walking) by {
      assert [Sitting, Sitting, Sitting, Sitting, Sitting][0] != Walking;
    }
  }

  /** Every posture has its own description. */
  lemma {:induction false} DescriptionInjective(p: Posture, q: Posture)
    requires Description(p) == Description(q)
    ensures p == q
  {
  }

  /** What `triggerEvent` needs beyond the posture: the generated id, the
      session anchor and speed, the video position and the snapshot (empty
      when the capture failed). */
  datatype EventContext = EventContext(id: string, start: Option<int>, speed: nat, t: nat, snapshot: string)

  /** The event record for a confirmed posture change. */
  function MakeEvent(kind: Posture, ctx: EventContext): (e: SimulationEvent)
    ensures e.kind == kind && e.id == ctx.id && e.snapshotUrl == ctx.snapshot
    ensures e.isCritical <==> kind == Falling
    ensures e.description == Some(Description(kind))
    ensures e.timestamp == TimeText(ctx.start, ctx.t, ctx.speed)
    ensures e.date == Some(DateText(ctx.start, ctx.t, ctx.speed))
  {
    SimulationEvent(
      ctx.id, kind, TimeText(ctx.start, ctx.t, ctx.speed),
      Some(DateText(ctx.start, ctx.t, ctx.speed)), Some(Description(kind)),
      ctx.snapshot, kind == Falling, None)
  }

  /** One frame with its event record. */
  function ProcessFrame(s: Session, f: Frame, ctx: EventContext): (r: (Session, Option<SimulationEvent>))
    ensures r.0 == Step(s, f).session
    ensures r.1.Some? <==> Step(s, f).emitted.Some?
    ensures r.1.Some? ==> r.1.value.kind == r.0.displayed && !r.1.value.isCritical
  {
    var step := Step(s, f);
    match step.emitted
    case None => (step.session, None)
    case Some(p) => (step.session, Some(MakeEvent(p, ctx)))
  }
}

=== FILE: sitting.dfy ===
/**
  The sitting-time monitor of a running session and its one-shot wellness
  notification. Each run of the accumulation effect (a new whole second of
  video, a new displayed posture or a new speed) is one `Tick`; each run of
  the notification effect follows it. The six-second auto-dismiss timer is
  the `Timeout` input.
 */
module SittingMonitor {

  import opened Types

  /** Forty-five simulated minutes, in simulated seconds. */
  const AlertThreshold := 45 * 60

  /** `sittingTime` (simulated seconds), `hasNotified`, `showNotification`. */
  datatype Monitor = Monitor(sittingTime: nat, hasNotified: bool, showNotification: bool)

  const Fresh := Monitor(0, false, false)

  /** The notification effect: raise the notification once the threshold is
      reached, and clear both flags when the sitting time is back at zero. */
  function Notify(m: Monitor): (r: Monitor)
    ensures r.sittingTime == m.sittingTime
    ensures r.sittingTime == 0 ==> !r.hasNotified && !r.showNotification
    ensures m.sittingTime >= AlertThreshold && !m.hasNotified ==> r.hasNotified && r.showNotification
    ensures m.sittingTime > 0 && (m.sittingTime < AlertThreshold || m.hasNotified) ==> r == m
  {
    var raised := if m.sittingTime >= AlertThreshold && !m.hasNotified
      then m.(showNotification := true, hasNotified := true)
      else m;
    if raised.sittingTime == 0 then raised.(showNotification := false, hasNotified := false)
    else raised
  }

  /** Re-running the notification effect after its own update changes nothing. */
  lemma {:induction false} NotifyIdempotent(m: Monitor)
    ensures Notify(Notify(m)) == Notify(m)
  {
  }

  /** The accumulation effect: while the video runs past its first second,
      a sitting figure adds `60 * speed` simulated seconds and any other
      posture restarts the count. */
  function Accumulate(m: Monitor, t: nat, playing: bool, displayed: Posture, speed: nat): (r: Monitor)
    ensures r.hasNotified == m.hasNotified && r.showNotification == m.showNotification
    ensures t > 0 && playing && displayed == Sitting ==> r.sittingTime == m.sittingTime + 60 * speed
    ensures t > 0 && playing && displayed != Sitting ==> r.sittingTime == 0
    ensures !(t > 0 && playing) ==> r == m
  {
    if t > 0 && playing then
      if displayed == Sitting then m.(sittingTime := m.sittingTime + 60 * speed)
      else m.(sittingTime := 0)
    else m
  }

  datatype Input =
    | Tick(t: nat, playing: bool, displayed: Posture, speed: nat)
    | Timeout

  /** One input followed by the notification effect. */
  function Apply(m: Monitor, i: Input): (r: Monitor)
    ensures i.Timeout? ==> !r.showNotification && r.(showNotification := m.showNotification) == m
    ensures i.Tick? && i.t > 0 && i.playing && i.displayed != Sitting ==> r == Fresh
    ensures i.Tick? && i.t > 0 && i.playing && i.displayed == Sitting ==>
              r.sittingTime == m.sittingTime + 60 * i.speed
    ensures i.Tick? && !(i.t > 0 && i.playing) && m.sittingTime > 0 && m.sittingTime < AlertThreshold ==> r == m
  {
    match i
    case Tick(t, playing, displayed, speed) => Notify(Accumulate(m, t, playing, displayed, speed))
    case Timeout => m.(showNotification := false)
  }

  /** The flags agree with the sitting time: the notification has been raised
      exactly when the threshold is reached, and is shown only if raised. */
  predicate Consistent(m: Monitor) {
    && (m.hasNotified <==> m.sittingTime >= AlertThreshold)
    && (m.showNotification ==> m.hasNotified)
  }

  /** Every input keeps the flags consistent with the sitting time. */
  lemma {:induction false} ApplyConsistent(m: Monitor, i: Input)
    requires Consistent(m)
    ensures Consistent(Apply(m, i))
  {
  }

  /** Whether an input raised the notification. */
  predicate Raised(before: Monitor, after: Monitor) {
    !before.hasNotified && after.hasNotified
  }

  /** An input that does not end a sitting streak: a timeout, an inactive
      tick, or an active tick with the figure sitting. */
  predicate KeepsStreak(i: Input) {
    i.Tick? ==> !(i.t > 0 && i.playing) || i.displayed == Sitting
  }

  /** The monitor after a sequence of inputs. */
  function Feed(m: Monitor, inputs: seq<Input>): Monitor
    decreases |inputs|
  {
    if inputs == [] then m else Feed(Apply(m, inputs[0]), inputs[1..])
  }

  /** How many inputs of the sequence raised the notification. */
  function Raises(m: Monitor, inputs: seq<Input>): nat
    decreases |inputs|
  {
    if inputs == [] then 0
    else
      var next := Apply(m, inputs[0]);
      (if Raised(m, next) then 1 else 0) + Raises(next, inputs[1..])
  }

  /** Once raised, the notification stays raised for the rest of the streak. */
  lemma {:induction false} RaisedStaysRaised(m: Monitor, inputs: seq<Input>)
    requires Consistent(m) && m.hasNotified
    requires forall k :: 0 <= k < |inputs| ==> KeepsStreak(inputs[k])
    ensures Raises(m, inputs) == 0
    ensures Feed(m, inputs).hasNotified
    decreases |inputs|
  {
    if inputs != [] {
      ApplyConsistent(m, inputs[0]);
      RaisedStaysRaised(Apply(m, inputs[0]), inputs[1..]);
    }
  }

  /** Within one sitting streak the notification is raised at most once. */
  lemma {:induction false} RaisedAtMostOnce(m: Monitor, inputs: seq<Input>)
    requires Consistent(m)
    requires forall k :: 0 <= k < |inputs| ==> KeepsStreak(inputs[k])
    ensures Raises(m, inputs) <= 1
    decreases |inputs|
  {
    if inputs != [] {
      var next := Apply(m, inputs[0]);
      ApplyConsistent(m, inputs[0]);
      if next.hasNotified {
        RaisedStaysRaised(next, inputs[1..]);
      } else {
        RaisedAtMostOnce(next, inputs[1..]);
      }
    }
  }

  /** `k` playing seconds of a sitting figure at speed 1, from a fresh monitor. */
  function SittingSeconds(k: nat): Monitor {
    if k == 0 then Fresh else Apply(SittingSeconds(k - 1), Tick(k, true, Sitting, 1))
  }

  /** At speed 1 each second adds a simulated minute; the notification is up
      from the forty-fifth second on. */
  lemma {:induction false} SittingSecondsCount(k: nat)
    ensures SittingSeconds(k).sittingTime == 60 * k
    ensures SittingSeconds(k).hasNotified <==> k >= 45
    ensures SittingSeconds(k).showNotification <==> k >= 45
  {
    if k > 0 {
      SittingSecondsCount(k - 1);
    }
  }

  /** The forty-fifth second, and no other, raises the notification. */
  lemma {:induction false} FortyFifthSecondRaises(k: nat)
    requires k > 0
    ensures Raised(SittingSeconds(k - 1), SittingSeconds(k)) <==> k == 45
  {
    SittingSecondsCount(k - 1);
    SittingSecondsCount(k);
  }
}

=== FILE: text.dfy ===
/**
  The string helpers the screens rely on: decimal rendering of numbers
  (`toString`, `padStart(2, '0')`), decimal parsing of the digit strings that
  `Number` accepts, splitting on a separator character and replacing one
  character by another.
 */
module Text {

  import opened Types

  predicate IsDigit(c: char) {
    '0' <= c <= '9'
  }

  predicate AllDigits(s: string) {
    forall i :: 0 <= i < |s| ==> IsDigit(s[i])
  }

  function DigitChar(d: nat): (c: char)
    requires d < 10
    ensures IsDigit(c) && c as int - '0' as int == d
  {
    ('0' as int + d) as char
  }

  function DigitValue(c: char): (d: nat)
    requires IsDigit(c)
    ensures d < 10 && DigitChar(d) == c
  {
    (c as int - '0' as int) as nat
  }

  /** The decimal text of `n`, as `n.toString()` writes it: no sign and no
      leading zero. */
  function NatToString(n: nat): (r: string)
    ensures |r| >= 1 && AllDigits(r)
    ensures r[0] == '0' <==> n == 0
    ensures n < 10 <==> |r| == 1
  {
    if n < 10 then [DigitChar(n)] else NatToString(n / 10) + [DigitChar(n % 10)]
  }

  /** The value of a non-empty string of decimal digits; leading zeros are
      accepted, as `Number("08")` accepts them. */
  function ParseNat(s: string): (r: Option<nat>)
    ensures r.Some? <==> |s| > 0 && AllDigits(s)
  {
    if |s| == 0 || !IsDigit(s[|s| - 1]) then None
    else if |s| == 1 then Some(DigitValue(s[0]))
    else match ParseNat(s[..|s| - 1])
      case None => None
      case Some(v) => Some(v * 10 + DigitValue(s[|s| - 1]))
  }

  /** `Number(s)` on the inputs the model admits: the empty string is 0, a
      string of digits is its value, anything else is NaN (`None`). */
  function JsNumber(s: string): (r: Option<nat>)
    ensures r.Some? <==> AllDigits(s)
    ensures s == [] ==> r == Some(0)
  {
    if s == [] then Some(0) else ParseNat(s)
  }

  /** Parsing the decimal text of a number gives the number back. */
  lemma {:induction false} ParseNatToString(n: nat)
    ensures ParseNat(NatToString(n)) == Some(n)
  {
    if n >= 10 {
      ParseNatToString(n / 10);
      var s := NatToString(n);
      assert s[..|s| - 1] == NatToString(n / 10);
      assert DigitValue(s[|s| - 1]) == n % 10;
    }
  }

  /** `n.toString().padStart(2, '0')`. */
  function Pad2(n: nat): (r: string)
    ensures AllDigits(r)
    ensures n < 100 ==> |r| == 2
    ensures n >= 10 ==> r == NatToString(n)
    ensures ParseNat(r) == Some(n)
  {
    ParseNatToString(n);
    if n < 10 then
      var r := ['0', DigitChar(n)];
      assert r[..1] == ['0'];
      r
    else NatToString(n)
  }

  /** `${i}` for an integer: a minus sign before the digits of a negative value. */
  function IntToString(i: int): (r: string)
    ensures |r| >= 1
    ensures i >= 0 ==> r == NatToString(i)
    ensures i < 0 ==> r[0] == '-' && r[1..] == NatToString(-i)
  {
    if i < 0 then "-" + NatToString(-i) else NatToString(i)
  }

  /** Position of the first occurrence of `c` in `s`. */
  function IndexOf(s: string, c: char): (i: nat)
    requires c in s
    ensures i < |s| && s[i] == c && c !in s[..i]
  {
    if s[0] == c then 0 else 1 + IndexOf(s[1..], c)
  }

  /** The pieces separators `c` join into `pieces`. */
  function Join(pieces: seq<string>, c: char): string
    requires |pieces| >= 1
  {
    if |pieces| == 1 then pieces[0] else pieces[0] + [c] + Join(pieces[1..], c)
  }

  /** `s.split(c)`: the maximal separator-free pieces of `s`, empty pieces
      included. */
  function Split(s: string, c: char): (r: seq<string>)
    ensures |r| >= 1
    ensures forall k :: 0 <= k < |r| ==> c !in r[k]
    ensures Join(r, c) == s
    decreases |s|
  {
    if c !in s then [s]
    else
      var i := IndexOf(s, c);
      var rest := Split(s[i + 1..], c);
      assert s == s[..i] + [c] + s[i + 1..];
      [s[..i]] + rest
  }

  /** The first separator after a separator-free piece is the one right
      behind it. */
  lemma {:induction false} IndexAfterPiece(p: string, c: char, tail: string)
    requires c !in p
    ensures c in p + [c] + tail && IndexOf(p + [c] + tail, c) == |p|
  {
    var s := p + [c] + tail;
    assert s[|p|] == c;
    if p != [] {
      assert s[0] == p[0];
      assert s[1..] == p[1..] + [c] + tail;
      IndexAfterPiece(p[1..], c, tail);
    }
  }

  /** Splitting peels off a leading separator-free piece. */
  lemma {:induction false} SplitAfterPiece(p: string, c: char, tail: string)
    requires c !in p
    ensures Split(p + [c] + tail, c) == [p] + Split(tail, c)
  {
    var s := p + [c] + tail;
    IndexAfterPiece(p, c, tail);
    assert s[..|p|] == p;
    assert s[|p| + 1..] == tail;
  }

  /** Splitting a joined text gives the pieces back, provided no piece holds
      the separator. */
  lemma {:induction false} SplitJoin(pieces: seq<string>, c: char)
    requires |pieces| >= 1
    requires forall k :: 0 <= k < |pieces| ==> c !in pieces[k]
    ensures Split(Join(pieces, c), c) == pieces
  {
    if |pieces| > 1 {
      var tail := Join(pieces[1..], c);
      assert Join(pieces, c) == pieces[0] + [c] + tail;
      SplitAfterPiece(pieces[0], c, tail);
      SplitJoin(pieces[1..], c);
      assert pieces == [pieces[0]] + pieces[1..];
    }
  }

  /** `s.replace(/x/g, y)` for single characters. */
  function ReplaceChar(s: string, x: char, y: char): (r: string)
    ensures |r| == |s|
    ensures forall i :: 0 <= i < |s| ==> r[i] == (if s[i] == x then y else s[i])
  {
    if s == [] then [] else [if s[0] == x then y else s[0]] + ReplaceChar(s[1..], x, y)
  }
}

=== FILE: types.dfy ===
/**
  The records shared by the monitoring demo: postures, video configurations,
  simulation events, cameras and group members. Optional fields of the
  original records are `Option`s; strings are `seq<char>`.
 */
module Types {

  datatype Option<+T> = None | Some(value: T)

  /** The posture vocabulary of the classifier and of every event. */
  datatype Posture = Standing | Walking | Sitting | Laying | Falling

  /** The configuration of one simulation session.
      `speed` is the number of simulated minutes per second of video. */
  datatype VideoConfig = VideoConfig(
    id: string,
    cameraName: string,
    startTime: string,
    speed: nat,
    date: string,
    eventType: Option<Posture>,
    videoUrl: Option<string>,
    thumbnailUrl: Option<string>,
    durationText: Option<string>,
    originalDate: Option<string>)

  /** One reported event; `kind` is the record's `type` field. */
  datatype SimulationEvent = SimulationEvent(
    id: string,
    kind: Posture,
    timestamp: string,
    date: Option<string>,
    description: Option<string>,
    snapshotUrl: string,
    isCritical: bool,
    duration: Option<string>)

  datatype UserRole = Owner | Admin | Viewer

  datatype GroupMember = GroupMember(
    id: string,
    name: string,
    role: UserRole,
    title: string,
    avatarSeed: string,
    avatarUrl: Option<string>,
    isCurrentUser: Option<bool>)

  datatype CameraSource = Demo | LiveCamera | SharedByUser

  datatype CameraStatus = Online | Offline | Processing

  datatype Camera = Camera(
    id: string,
    name: string,
    source: CameraSource,
    status: CameraStatus,
    lastEventTime: Option<string>,
    events: seq<SimulationEvent>,
    previewUrl: Option<string>,
    config: Option<VideoConfig>)
}
